=== FILE: README.md ===
# serializer: a Dafny model of the schema-driven bit-packing codec

The repository's library code (`src/main.rs`) packs a map of named values into
a byte string, following a schema of fields, and reads it back. There are
three kinds of field:

- `Int`, bounded by `[min, max]`: stored as `value - min` in
  ceil(log2(max - min + 1)) bits. An Int whose range holds one value is
  *always present* and takes no bits.
- `Boolean`: one bit.
- `Bytes`, at most `max` bytes long: stores its length in
  ceil(log2(max + 1)) bits, and its payload after the packed bits.

`Schema::construct` resolves the widths and moves the Bytes fields behind the
others with a stable sort. `to_buffer` ORs each field's bits into an
accumulator at a running offset, LSB first, and flushes low bytes as they
fill. It then splices the raw payloads in after those bytes. `from_buffer`
starts from the first input byte, tops the accumulator up one byte at a time,
and takes each payload from the end of the whole input.

The model has eight modules:

- `Binary` (binary.dfy): powers of two and the integer ceil-log2 that replaces
  `f32::log2(..).ceil()`. Also the register operations `<<`, `>>`, the low-bit
  mask and `|` on naturals, little-endian byte strings, and the shortest
  little-endian form of a number (`Minimal`). The shifts and the mask are
  defined one bit at a time and proved equal to multiplication, division and
  remainder by 2^n.
- `Fields` (fields.dfy): declared fields (`FieldDecl`), resolved fields
  (`Field`), runtime values (`Value`), widths, and what "resolved" and
  "in range" mean.
- `Schemas` (schema.dfy): `construct`. It covers width resolution, the
  comparator handed to `sort_by`, the stable sort it yields, and the
  byte-length hint.
- `Encoder` (encoder.dfy): `to_buffer`. The accumulator is a `nat`, and the
  two flush loops, the OR-in step and the insert loops are each a function.
  Every loop is connected to an independent description: the packed sum of
  slots `Pack`, its shortest byte form, and the reversed concatenation of the
  payloads. The same loops are also written on the source's i32 register
  (32-bit shifts, `int > 0` false once the sign bit is set). The two agree
  exactly while no shifted value reaches bit 31 (`StaysInRegister`).
- `Decoder` (decoder.dfy): `from_buffer`, with its registers (accumulator,
  valid-bit count, input index). It is proved equal, on every non-empty
  input, to a reference decoder that reads each field's bits at an absolute
  bit offset. When no field is wider than 24 bits, the decoder's register
  never reaches bit 31 on any input. Unlike the encoder, the decoder is not
  written a second time on an i32 register: its safety is a predicate over
  the natural-number registers (`FieldsInRegister`), saying that every
  shifted byte, mask and result stays below bit 31, where i32 and natural
  arithmetic coincide.
- `RoundTrip` (roundtrip.dfy): when decoding the encoder's output gives the
  map back, and when it does not, with concrete inputs for each way it fails.
- `Corrected` (corrected.dfy): the encoder with both flush loops emitting
  zero bytes too. It writes exactly the bytes the decoder reads, and it
  round-trips every in-range map with at most one Bytes field.
- `Driver` (driver.dfy): the `buffer` field of `main` (src/main.rs:230)
  declared alone. It shows how a payload's first byte decides whether a
  payload survives once the high byte of the fixed region is dropped.

Every place where the source panics is modelled, except those listed under
"Left out" below (shift amounts of 32 or more, and i32 arithmetic
overflow). Two ways are used:

- **Encoder:** a missing map entry (`unwrap` at lines 116, 122 and 127) is
  excluded by the precondition `Encodable`. On the i32 register, a shift of
  32 or more is `None`.
- **Decoder:** each of the following panics is a `Failure` value, so the
  contracts say exactly which inputs cause it:
  - `EmptyBuffer`: `buffer[0]` on empty input (line 166);
  - `BufferUnderrun`: reading past the end (line 190);
  - `InvalidLength`: `buffer.len() - length` below zero (line 210).

Points where the model settles a question:

- **Bytes fields keep their order.** `sort_by` only ever asks whether the
  comparator answered `Less`. The relation that question defines (a non-Bytes
  field before a Bytes field) is a strict weak order, so any stable sort puts
  the Bytes fields in declaration order too, even though the comparator
  answers `Greater` both ways for a pair of Bytes fields.
  `Schemas.PrecedesIsStrictWeakOrder` and `Schemas.StableSortUnique` prove
  this.
- **Always-present fields are still looked up.** The encoder calls `unwrap` on
  the map entry of every field, always-present Ints included, so a map
  without that entry panics. And a schema of only always-present fields
  encodes to an empty byte vector, which the decoder rejects at `buffer[0]`.
  The encoder's precondition `Encodable` demands an entry for every field,
  always-present ones included, and `RoundTrip.ConstantIsLost` shows the
  empty output.
- **Field names need not be distinct.** The round-trip lemmas hold without
  this. Two fields with the same name read the same map entry.

## Model

| member | source | states |
|---|---|---|
| Binary.CeilLog2 | src/main.rs:55 | The width computed for a count n is a b with 2^b ≥ n, and 2^(b-1) < n unless b = 0. |
| Binary.CeilLog2Least | src/main.rs:75 | No width smaller than CeilLog2(n) reaches n: it is the least exponent with 2^b ≥ n. |
| Binary.ShlIsMul | src/main.rs:118 | Shifting a value left by n bits multiplies it by 2^n. |
| Binary.ShrIsDiv | src/main.rs:199 | Shifting a non-negative register right by n bits divides it by 2^n, rounding down. |
| Binary.LowIsMod | src/main.rs:196-197 | Masking with `(1 << n) - 1` leaves the remainder of the register modulo 2^n. |
| Binary.BitOrDisjoint | src/main.rs:118 | ORing a value shifted above every set bit of the accumulator is plain addition. This is why `\|=` at a running offset packs fields without mixing them. |
| Schemas.ResolveField | src/main.rs:53-83 | An Int gets the least width covering max - min + 1 values, and is always present exactly when min = max. A Boolean gets width 1. A Bytes field gets the least width covering lengths 0..max. Name, min and max are kept, and the field is Resolved. |
| Schemas.ResolveAll | src/main.rs:52-85 | Resolution keeps the number of fields, and field i is the resolution of declaration i. |
| Schemas.PrecedesIsStrictWeakOrder | src/main.rs:87-95 | The relation the sort sees (comparator answers Less) is irreflexive and transitive, with transitive incomparability, and holds exactly for a non-Bytes field before a Bytes field. |
| Schemas.ReorderIsStableSort | src/main.rs:87-95 | Fixed-width fields followed by Bytes fields, each group in order, is a permutation of the input. It is sorted by the comparator and keeps each group's relative order. |
| Schemas.StableSortUnique | src/main.rs:87-95 | Every stable sort of the fields by the comparator gives that same sequence, so the order is fully determined, also for several Bytes fields. |
| Schemas.Construct | src/main.rs:49-105 | The schema's fields are a stable sort of the resolved declarations and are all Resolved. The hint is the total width divided by 8, rounded down: 8·hint ≤ width < 8·hint + 8. |
| Schemas.MaxByteLengthIsFloor | src/main.rs:97 | A lone Boolean needs one bit, yet the hint is 0: the `ceil` comes after the integer division. |
| Encoder.SlotOf | src/main.rs:115-132 | A field contributes bits exactly when its value has the field's variant. An Int stores value - min, a Boolean 1 exactly for true, a Bytes field its payload length, each in the field's width. |
| Encoder.Flush | src/main.rs:135-146 | Emitting low bytes keeps the value represented by output plus accumulator, keeps the bit offset, only appends to the output, and stops once fewer than `threshold` bits are pending or the accumulator is 0. |
| Encoder.EncodeFieldSpec | src/main.rs:115-139 | One iteration of the field loop adds the field's slot (nothing, for a skipped field) at the current offset, advances the offset by the slot's width, and keeps the accumulator below 2^pending. |
| Encoder.EncodeFieldsSpec | src/main.rs:114-140 | The field loop adds the packed slots of the fields, shifted to the current offset, to the represented value. It advances the offset by their total width. |
| Encoder.FixedRegion | src/main.rs:114-146 | On a natural-number accumulator, when every value fits its width, the bytes written before the payloads are the shortest little-endian form of the packed slots. |
| Encoder.FlushI32Agrees | src/main.rs:135-146 | Below bit 31, a flush loop on the i32 register (where `int > 0` also fails once the sign bit is set) emits the same bytes and leaves the same registers as on a natural number. |
| Encoder.PutI32Agrees | src/main.rs:118-131 | When the shift amount is below 32 and neither the shifted value nor the result reaches bit 31, `int \|= value << written_bytes` on the 32-bit register gives the natural-number result. |
| Encoder.EncodeFieldsI32Agrees | src/main.rs:114-140 | A field loop whose every OR-in stays inside the register computes on the i32 register exactly the registers it computes on a natural number, with the accumulator below 2^31 after it. |
| Encoder.FixedRegionInRegister | src/main.rs:107-146 | Where every OR-in of the field loop stays inside the i32 register, the source's fixed region is the natural-number one. |
| Encoder.InsertFrom | src/main.rs:155-157 | Inserting the bytes of a buffer one at a time at `at + j` splices the rest of the buffer in at `at + j`. |
| Encoder.Splice | src/main.rs:153-158 | Inserting every payload at the end of the fixed region places the payloads there last one first. |
| Encoder.ToBuffer | src/main.rs:107-161 | The output is the fixed region followed by the payloads in reverse schema order. |
| Encoder.ConcatReversedIsReverse | src/main.rs:153-158 | The payload region is the concatenation of the payload list reversed. Its length is the sum of the payload lengths. |
| Encoder.OutputLayout | src/main.rs:148-160 | Output length is the fixed region's length plus every payload's. The first payload written ends the output. With a single payload the output is the fixed region followed by that payload. |
| Decoder.TopUp | src/main.rs:189-193 | Topping up either yields at least the requested number of valid bits, leaving the map alone, or fails with an underrun on the field being read. |
| Decoder.TopUpTracks | src/main.rs:189-193 | Topping up fails exactly when the field's bits reach past the last input bit. Otherwise the registers still hold the input from the same bit offset. |
| Decoder.ExtractTracks | src/main.rs:195-209 | The low w bits of the accumulator are input bits [offset, offset + w). Shifting them out leaves the registers holding the input from offset + w. |
| Decoder.ExtractMatches | src/main.rs:195-210 | Taking a field's bits out of registers that hold the input from some offset gives the same failure or the same map as the reference decoder at that offset. The registers then hold the input from the next offset. |
| Decoder.DecodeFieldMatchesReference | src/main.rs:172-211 | One field read through the registers and by the reference decoder gives the same failure or the same map. The registers then track the reference offset. |
| Decoder.DecodeFieldsMatchReference | src/main.rs:172-212 | The register-based field loop and the absolute-offset reference decoder agree from any tracked state on. |
| Decoder.FieldsStayInRegister | src/main.rs:172-212 | From registers holding at most 31 valid bits and nothing above them, every field of at most 24 bits is topped up, masked and shifted out without reaching bit 31, whatever the input bytes, and the registers stay that narrow. |
| Decoder.FromBufferInRegister | src/main.rs:163-212 | When no field is wider than 24 bits, `from_buffer` never leaves its i32 register on any non-empty input. |
| Decoder.FromBuffer | src/main.rs:163-215 | Empty input fails at the first byte. Any other input decodes exactly as the reference decoder reads it from bit 0. |
| RoundTrip.InRangeSlot | src/main.rs:115-132 | An in-range value of a resolved field yields a slot that fits the field's width. An always-present Int can only hold its min. |
| RoundTrip.InRangeSlots | src/main.rs:114-133 | In range, every field yields a slot, the slots fit, and together they are exactly as wide as the schema. |
| RoundTrip.FixedRegionIsPacked | src/main.rs:114-146 | In range, and where every OR-in stays inside the i32 register, the source computes the natural-number fixed region. It is the shortest little-endian form of the packed value P < 2^width, with no zero high byte, never longer than the decoder consumes, and empty exactly when P = 0. |
| RoundTrip.FieldStep | src/main.rs:174-210 | Where the next Width bits of the input hold a field's slot, one reference decoder step stores exactly the value that was packed and moves on by the width. An Int is rebuilt as the low bits + min, and an always-present Int as its min. A Boolean is rebuilt as low bit = 1, and a Bytes field as the last `length` input bytes. |
| RoundTrip.FieldAdvances | src/main.rs:183-209 | A field read successfully shifts out exactly its width, and its bits lie inside the input. |
| RoundTrip.DecodeNeedsAllBits | src/main.rs:189-193 | Decoding succeeds only if the input holds every field's bits from the start offset on. |
| RoundTrip.OnlyPayload | src/main.rs:210 | With at most one Bytes field, the payload region is that field's payload, so it is the tail the decoder takes. |
| RoundTrip.DecodePacked | src/main.rs:172-212 | From a bit offset where the remaining fields' packed slots begin, decoding returns each remaining field's value and keeps the other entries. |
| RoundTrip.DecodesPacked | src/main.rs:163-214 | A fixed region of exactly the length the decoder consumes, holding the packed slots, followed by the payload region, decodes to every field's value. |
| RoundTrip.RoundTrip | src/main.rs:107-214 | from_buffer(to_buffer(v)) succeeds, with exactly the schema's names as keys and v's value at each, when: fields are resolved and at most 24 bits wide, there is at most one Bytes field, values are in range, every OR-in of the encoder stays inside its i32 register, and the fixed region has its full length. Encoder and decoder then compute on their i32 registers what the model computes. |
| RoundTrip.FixedOnlyRoundTripIff | src/main.rs:142-146 | Without Bytes fields, with no field wider than 24 bits and every OR-in inside the i32 register, decoding the encoder's output succeeds if and only if the fixed region has its full length. |
| RoundTrip.ZeroValueIsLost | src/main.rs:142-146 | A schema whose only field is an Int in [0, 2] (two bits wide, as `construct` resolves it) holding 0 encodes to no bytes, and decoding that fails with EmptyBuffer. |
| RoundTrip.ConstantIsLost | src/main.rs:142-146 | A lone always-present Int encodes to no bytes, and decoding that fails with EmptyBuffer. |
| RoundTrip.ToBufferPadded | src/main.rs:142-146 | The padded encoder writes the fixed region padded to the length the decoder consumes. It agrees with the source whenever no byte was dropped. |
| RoundTrip.PaddedRegion | src/main.rs:142-146 | The padded fixed region starts with the source's fixed region, continues with zero bytes only, reaches the length the decoder consumes, and has the same little-endian value. It is the source's region whenever that is already long enough. |
| RoundTrip.PaddedFixedRegion | src/main.rs:142-146 | In range, the fixed region never exceeds the length the decoder consumes, so the padded region has exactly that length and holds the packed slots. |
| RoundTrip.RoundTripPadded | src/main.rs:107-214 | On a natural-number accumulator, the padded encoder round-trips every in-range map, for resolved fields with at most one Bytes field, with no condition on the packed value. |
| RoundTrip.ZeroValueKeptWhenPadded | src/main.rs:142-146 | The padded encoder writes the Int 0 in [0, 2] as one zero byte, which decodes back to 0. |
| RoundTrip.OverflowOnNaturals | src/main.rs:114-146 | For an Int in [0, 2^24 - 1] holding 0 followed by an Int in [0, 16383] holding 8192, every premise of the natural-number round trip holds: resolved fields of at most 24 bits, values in range, a fixed region of full length. And the map comes back. |
| RoundTrip.OverflowOnRegister | src/main.rs:117-139 | On that input the zero byte of the first field is never flushed, so the second OR-in shifts 8192 by 24 bits. That leaves the i32 register: the shifted value is 0 in 32 bits and the source's fixed region is empty. |
| RoundTrip.ZeroBytesOverflowRegister | src/main.rs:107-166 | For the schema `construct` builds from those two declarations, the model's round trip holds, yet the source's register yields no fixed bytes and no payloads, and decoding that empty output fails with EmptyBuffer. |
| Corrected.FlushEager | src/main.rs:135-146 | The flush loops without their `int > 0` condition: emitting every byte, zero or not, keeps the represented value and the offset, and stops with fewer than `threshold` bits pending. |
| Corrected.EncodeFieldsEagerSpec | src/main.rs:114-140 | The field loop with that flush adds the packed slots at the starting offset and advances the offset by their total width. |
| Corrected.FinalFlushEager | src/main.rs:142-146 | After the final flush nothing is pending: the bytes emitted hold exactly the packed slots, in ceil(width/8) bytes. |
| Corrected.EagerIsPadded | src/main.rs:142-146 | In range, the corrected fixed region is the source's fixed region padded with zero bytes, of exactly the length the decoder consumes. |
| Corrected.EagerStaysInRegister | src/main.rs:114-140 | With fewer than 8 bits pending before each field and no field wider than 24 bits, every OR-in of the corrected field loop stays inside the i32 register. |
| Corrected.RoundTripEager | src/main.rs:107-214 | The corrected encoder round-trips every in-range map of a resolved schema with at most one Bytes field. When no field is wider than 24 bits, encoder and decoder both stay inside their i32 registers. |
| Corrected.ConstructedRoundTrip | src/main.rs:49-214 | For any schema `construct` builds from valid declarations with at most one Bytes declaration, corrected encoding then decoding gives every in-range map back, inside the registers when no field is wider than 24 bits. |
| Driver.PayloadSchema | src/main.rs:74-83 | `construct` gives the `buffer` field of `main` (at most 1000 bytes) a 10-bit length. |
| Driver.LengthBits | src/main.rs:189-207 | That 10-bit length is read from all of input byte 0 and the low two bits of byte 1. |
| Driver.DecodePayload | src/main.rs:163-214 | With that field alone, decoding gives the last `length` input bytes, or InvalidLength when `length` exceeds the input. |
| Driver.PayloadEncodes | src/main.rs:107-161 | A payload of 1 to 255 bytes encodes to its length byte followed by the payload: the zero high byte of the 10-bit region is dropped. |
| Driver.PayloadRoundTripIff | src/main.rs:107-214 | Such a payload comes back exactly when its first byte has its low two bits clear, and otherwise decoding fails with InvalidLength. |
| Driver.HelloSurvives | src/main.rs:244-249 | "hello world" encodes to its length byte 11 and the payload, and decodes back. |
| Driver.WorldIsLost | src/main.rs:244-249 | "world" encodes to its length byte 5 and the payload, and decoding fails with InvalidLength. |
| Driver.PayloadRoundTripsEager | src/main.rs:142-146 | The corrected encoder writes the length, the zero high byte and the payload, and every payload of 1 to 255 bytes decodes back. |
| Driver.WorldKeptWhenCorrected | src/main.rs:244-249 | With the corrected encoder, "world" encodes to [5, 0] and the payload, and decodes back. |

## Left out

- `main` (src/main.rs:218-251) prints, and its own eleven-field schema is not evaluated. Its fixed region spans 43 bits, so the decoder reads six bytes of it, but for its map the encoder writes five. The decoder takes the missing high bits from the payload's first byte, 'h', whose low three bits happen to be zero. `Driver` proves the same effect on the `buffer` field alone.
- `f32::log2(..).ceil()` (lines 55 and 75) is modelled as the exact integer ceil-log2. Single-precision rounding is not modelled, and it matters well inside 24 bits: from ranges of 2^21 + 1 values on, a correctly rounded f32 log2 can round down to an integer. For `IntDecl("x", 0, 8388608)` (2^23 + 1 values) log2 is 23 + 1.7·10^-7, which rounds to 23.0, so the source gives the field 23 bits and the value 2^23 does not come back.
- Schemas.ResolveField and Schemas.Construct: state the exact-width resolution. Where f32 rounding gives one bit too few, as above, the source's widths are smaller than these members state.
- Corrected.ConstructedRoundTrip: is about `construct` with exact widths. For a schema whose f32 width is one bit short, the source's `construct` yields another schema, and the round trip is not claimed for it.
- Int bounds and values are unbounded integers. `max - min` (line 54), `val - min` (line 117) and `val + min` (line 198) never overflow in the model, while the source's i32 arithmetic overflows for bounds or values far apart.
- The main encoder and decoder compute on natural numbers. The encoder's i32 register is modelled separately (`Encoder.FixedRegionI32`: 32-bit shifted values, and `None` for a shift of 32 or more, where a debug build panics). The decoder's register is proved to stay below bit 31 for fields of at most 24 bits. Wider fields on the decoder side, and arithmetic shifts of a negative register, are not modelled.
- Encoder.FixedRegion: states the fixed region computed on a natural-number accumulator. Once a shifted value reaches bit 31 the source computes something else: for an Int in [0, 2^24 - 1] holding 0 followed by an Int in [0, 16383] holding 8192, the model writes five bytes and the source none (`RoundTrip.ZeroBytesOverflowRegister`). `Encoder.FixedRegionInRegister` states where the two agree.
- RoundTrip.FixedRegionIsPacked: requires that every OR-in stays inside the i32 register (`StaysInRegister`). In-range maps that leave it, such as the input above, are not described.
- RoundTrip.RoundTrip: requires `StaysInRegister` and no field wider than 24 bits (`FitsRegister`). In-range maps whose OR-ins leave the register, such as the input above or 33 Booleans with only the last one true, are not claimed to round-trip.
- RoundTrip.FixedOnlyRoundTripIff: requires `StaysInRegister` and `FitsRegister`, for the same reason.
- RoundTrip.RoundTripPadded: states the padded encoder on a natural-number accumulator. `Corrected.RoundTripEager` states the same round trip for the corrected encoder together with its register bound, which needs no field wider than 24 bits.
- Schemas.Construct: requires min ≤ max for an Int and max ≥ 0 for a Bytes field. For other bounds the source takes the f32 log2 of a non-positive number. The saturating `as i32` cast of the resulting NaN (to 0) or −∞ (to i32::MIN) is not modelled.
- Encoder.ToBuffer: requires every field's name in the map and every Int value ≥ its min. The source panics on a missing entry. For a value below min it shifts a negative number into the accumulator, which is not modelled. Values above max, and payloads longer than max, are modelled: they spill into later fields' bits.
- `HashMap` is a Dafny `map<string, Value>`. Hashing and iteration order play no part.
- Field names are plain strings rather than `Option<&str>`. A field declared without a name, whose `unwrap` panics, is not modelled.
- The unused `Schema.int` and `Schema.bytes` members (src/main.rs:43, 45) are not modelled.
- Round trips with several Bytes fields are not claimed. The decoder gives every Bytes field the tail of the whole input. That tail holds the first Bytes field's payload, because each later payload is inserted before it (`Encoder.OutputLayout`). Another field's payload comes back only when it equals the tail of its own length, for example when it is empty. The encoder's layout for several payloads is modelled (`Encoder.Splice`, `Encoder.OutputLayout`).

## Findings

| source | as written | input that shows it | evidently intended | confidence | as-written member | corrected member |
|---|---|---|---|---|---|---|
| src/main.rs:142-146 | The final flush writes a byte only while the accumulator is nonzero. So zero high bytes of the fixed region are dropped, although the decoder always reads max(1, ceil(width/8)) bytes of it. | One Int field in [0, 2] with value 0: the encoder outputs no bytes, and the decoder panics at `buffer[0]`. | The fixed region always has max(1, ceil(width/8)) bytes, so that every in-range map with at most one Bytes field round-trips. | high; proved, not executed | RoundTrip.ZeroValueIsLost | Corrected.RoundTripEager (padding shown by Corrected.EagerIsPadded) |
| src/main.rs:142-146 | With a payload present, the same dropped high byte is read from the payload's first byte, so the decoded length picks up payload bits. | The `buffer` field of `main` (at most 1000 bytes, 10 length bits) alone, holding "world": the encoder outputs [5, 'w', 'o', 'r', 'l', 'd'], the decoder reads the length 5 + 3 * 256 = 773, and `buffer.len() - length` underflows at line 210. | The payload comes back whatever its first byte. | high; proved, not executed | Driver.WorldIsLost | Driver.WorldKeptWhenCorrected (every payload of 1 to 255 bytes: Driver.PayloadRoundTripsEager) |
| src/main.rs:135-139 | The field loop flushes only while `int > 0`, so zero low bytes stay pending and `written_bytes` keeps growing. The next `value << written_bytes` (line 118) then leaves the i32 register. | An Int in [0, 2^24 - 1] holding 0, then an Int in [0, 16383] holding 8192: `8192 << 24` is 0 in 32 bits, so the encoder outputs no bytes and the decoder panics at `buffer[0]`. | Every complete byte is flushed, zero or not, so fewer than 8 bits are pending before each field and a field of at most 24 bits stays below bit 31. | high; proved on the model of the register, not executed | RoundTrip.ZeroBytesOverflowRegister | Corrected.RoundTripEager (register bound: Corrected.EagerStaysInRegister) |

=== FILE: binary.dfy ===
/** Unbounded-integer arithmetic that stands in for the codec's `i32` shifts,
    masks and ORs, and the little-endian byte strings the encoder flushes. */
module Binary {

  type byte = x: int | 0 <= x < 256

  /** 2^n: `1 << n` without a register width. */
  function Pow2(n: nat): (r: nat)
    ensures r >= 1
  {
    if n == 0 then 1 else 2 * Pow2(n - 1)
  }

  lemma {:induction false} Pow2Add(a: nat, b: nat)
    ensures Pow2(a + b) == Pow2(a) * Pow2(b)
  {
    if a > 0 {
      Pow2Add(a - 1, b);
      assert Pow2(a + b) == 2 * Pow2(a - 1 + b);
    }
  }

  lemma {:induction false} Pow2Monotone(a: nat, b: nat)
    requires a <= b
    ensures Pow2(a) <= Pow2(b)
  {
    if a < b {
      Pow2Monotone(a, b - 1);
    }
  }

  /** The smallest b with 2^b >= n: the exact integer meaning of
      `f32::log2(n).ceil()`. */
  function CeilLog2(n: nat): (b: nat)
    requires n >= 1
    ensures Pow2(b) >= n
    ensures b == 0 || Pow2(b - 1) < n
    decreases n
  {
    if n == 1 then 0 else 1 + CeilLog2((n + 1) / 2)
  }

  /** A power of two needs exactly its exponent. */
  lemma {:induction false} CeilLog2OfPow2(k: nat)
    ensures CeilLog2(Pow2(k)) == k
  {
    if k > 0 {
      CeilLog2OfPow2(k - 1);
      assert (Pow2(k) + 1) / 2 == Pow2(k - 1);
    }
  }

  /** No smaller width reaches n: CeilLog2 is the least such exponent. */
  lemma {:induction false} CeilLog2Least(n: nat, c: nat)
    requires n >= 1
    requires Pow2(c) >= n
    ensures CeilLog2(n) <= c
  {
    var b := CeilLog2(n);
    if c < b {
      Pow2Monotone(c, b - 1);
    }
  }

  lemma CeilLog2ZeroIffOne(n: nat)
    requires n >= 1
    ensures CeilLog2(n) == 0 <==> n == 1
  {
  }

  /** `x << n` on an unbounded register: x doubled n times. */
  function Shl(x: nat, n: nat): nat
  {
    if n == 0 then x else 2 * Shl(x, n - 1)
  }

  /** Shifting left by n multiplies by 2^n. */
  lemma {:induction false} ShlIsMul(x: nat, n: nat)
    ensures Shl(x, n) == x * Pow2(n)
  {
    if n > 0 {
      ShlIsMul(x, n - 1);
      MulAssoc(2, x, Pow2(n - 1));
    }
  }

  /** `x >> n`: x halved n times, each time rounding down. */
  function Shr(x: nat, n: nat): nat
  {
    if n == 0 then x else Shr(x / 2, n - 1)
  }

  /** Shifting right by n divides by 2^n. */
  lemma {:induction false} ShrIsDiv(x: nat, n: nat)
    ensures Shr(x, n) == x / Pow2(n)
  {
    if n > 0 {
      ShrIsDiv(x / 2, n - 1);
      DivDivProduct(x, 2, Pow2(n - 1));
    }
  }

  /** `x & ((1 << n) - 1)`: the low n bits of x, lowest bit first. */
  function Low(x: nat, n: nat): nat
  {
    if n == 0 then 0 else x % 2 + 2 * Low(x / 2, n - 1)
  }

  /** Masking the low n bits is the remainder modulo 2^n. */
  lemma {:induction false} LowIsMod(x: nat, n: nat)
    ensures Low(x, n) == x % Pow2(n)
  {
    if n > 0 {
      LowIsMod(x / 2, n - 1);
      var P := Pow2(n - 1);
      var q, r := (x / 2) / P, (x / 2) % P;
      assert x / 2 == q * P + r;
      MulAssoc(q, P, 2);
      assert x == q * Pow2(n) + (2 * r + x % 2);
      DivModUnique(x, Pow2(n), q, 2 * r + x % 2);
    }
  }

  /** Bitwise OR of two naturals, one bit at a time from the least
      significant end. */
  function BitOr(a: nat, b: nat): nat
    decreases a + b
  {
    if a == 0 then b
    else if b == 0 then a
    else (if a % 2 == 1 || b % 2 == 1 then 1 else 0) + 2 * BitOr(a / 2, b / 2)
  }

  /** ORing a value shifted above every set bit of `a` is addition. */
  lemma {:induction false} BitOrDisjoint(a: nat, b: nat, k: nat)
    requires a < Pow2(k)
    ensures BitOr(a, b * Pow2(k)) == a + b * Pow2(k)
  {
    var c := b * Pow2(k);
    if k == 0 {
      assert a == 0;
    } else if a != 0 && c != 0 {
      assert c == 2 * (b * Pow2(k - 1));
      assert c % 2 == 0 && c / 2 == b * Pow2(k - 1);
      assert a / 2 < Pow2(k - 1);
      BitOrDisjoint(a / 2, b, k - 1);
    }
  }

  /** Euclidean division is determined by any quotient/remainder pair. */
  lemma DivModUnique(x: int, d: int, q: int, r: int)
    requires d > 0 && 0 <= r < d && x == q * d + r
    ensures x / d == q && x % d == r
  {
    var q0, r0 := x / d, x % d;
    assert x == q0 * d + r0;
    assert (q - q0) * d == r0 - r;
    if q0 < q {
      MulAtLeast(q - q0, d);
    } else if q0 > q {
      MulAtLeast(q0 - q, d);
    }
  }

  lemma MulAtLeast(k: int, d: int)
    requires k >= 1 && d > 0
    ensures k * d >= d
  {
    assert k * d == (k - 1) * d + d;
  }

  /** Splitting at a multiple of d: the part below stays in the remainder, the
      part above moves to the quotient. */
  lemma ShiftSplitBy(x: int, y: int, d: int)
    requires d > 0
    ensures (x + d * y) / d == x / d + y
    ensures (x + d * y) % d == x % d
  {
    assert x + d * y == (x / d + y) * d + x % d;
    DivModUnique(x + d * y, d, x / d + y, x % d);
  }

  lemma MulAssoc(a: int, b: int, c: int)
    ensures (a * b) * c == a * (b * c)
  {
  }

  lemma MulNat(a: nat, b: nat)
    ensures a * b >= 0
  {
  }

  lemma MulLeMono(a: int, b: int, c: int)
    requires a <= b && c >= 0
    ensures a * c <= b * c
  {
    assert b * c - a * c == (b - a) * c;
  }

  /** Shifting right by a and then by b is shifting right by a + b. */
  lemma DivDiv(x: nat, a: nat, b: nat)
    ensures x / Pow2(a) / Pow2(b) == x / Pow2(a + b)
  {
    Pow2Add(a, b);
    DivDivProduct(x, Pow2(a), Pow2(b));
  }

  lemma DivDivProduct(x: nat, A: int, B: int)
    requires A > 0 && B > 0
    ensures x / A / B == x / (A * B)
  {
    var q1, r1 := x / A, x % A;
    var q2, r2 := q1 / B, q1 % B;
    LowPartBound(r1, r2, A, B);
    Regroup(x, q1, r1, q2, r2, A, B);
    DivModUnique(x, A * B, q2, r2 * A + r1);
  }

  lemma Regroup(x: int, q1: int, r1: int, q2: int, r2: int, A: int, B: int)
    requires x == q1 * A + r1 && q1 == q2 * B + r2
    ensures x == q2 * (A * B) + (r2 * A + r1)
  {
    assert q1 * A == (q2 * B + r2) * A == q2 * (A * B) + r2 * A;
  }

  lemma LowPartBound(r1: int, r2: int, A: int, B: int)
    requires 0 <= r1 < A && 0 <= r2 < B
    ensures r2 * A + r1 < A * B
  {
    assert r2 * A <= (B - 1) * A;
    assert (B - 1) * A == A * B - A;
  }

  /** Reading the low w bits and the rest of `acc + 2^rb * x` when rb >= w:
      bits at or above rb do not disturb the low w bits. */
  lemma SplitBelow(acc: nat, x: nat, rb: nat, w: nat)
    requires w <= rb
    ensures (acc + Pow2(rb) * x) % Pow2(w) == acc % Pow2(w)
    ensures (acc + Pow2(rb) * x) / Pow2(w) == acc / Pow2(w) + Pow2(rb - w) * x
  {
    Pow2Add(w, rb - w);
    var A, B := Pow2(w), Pow2(rb - w);
    MulAssoc(A, B, x);
    ShiftSplitBy(acc, B * x, A);
  }

  /** A value below 2^(a+b), shifted right by a, is below 2^b. */
  lemma DivBound(x: nat, a: nat, b: nat)
    requires x < Pow2(a + b)
    ensures x / Pow2(a) < Pow2(b)
  {
    Pow2Add(a, b);
    DivBoundBy(x, Pow2(a), Pow2(b));
  }

  lemma DivBoundBy(x: int, A: int, B: int)
    requires A > 0 && B > 0 && 0 <= x < A * B
    ensures x / A < B
  {
    var q := x / A;
    assert q * A <= x;
    if q >= B {
      MulLeMono(B, q, A);
    }
  }

  lemma Pow2Plus8(n: nat)
    ensures Pow2(n + 8) == 256 * Pow2(n)
  {
    Pow2Add(8, n);
    assert Pow2(8) == 256;
  }

  /** The number a little-endian byte string stands for. */
  function LittleEndian(s: seq<byte>): nat
  {
    if |s| == 0 then 0 else s[0] + 256 * LittleEndian(s[1..])
  }

  lemma {:induction false} LittleEndianBound(s: seq<byte>)
    ensures LittleEndian(s) < Pow2(8 * |s|)
  {
    if |s| > 0 {
      LittleEndianBound(s[1..]);
      Pow2Plus8(8 * (|s| - 1));
    }
  }

  lemma {:induction false} LittleEndianAppend(a: seq<byte>, b: seq<byte>)
    ensures LittleEndian(a + b) == LittleEndian(a) + Pow2(8 * |a|) * LittleEndian(b)
  {
    if |a| == 0 {
      assert a + b == b;
    } else {
      assert (a + b)[0] == a[0];
      assert (a + b)[1..] == a[1..] + b;
      LittleEndianAppend(a[1..], b);
      Pow2Plus8(8 * (|a| - 1));
      ByteStep(a[0], LittleEndian(a[1..]), Pow2(8 * (|a| - 1)), LittleEndian(b));
    }
  }

  /** Byte strings of one length are told apart by their value. */
  lemma {:induction false} LittleEndianInjective(a: seq<byte>, b: seq<byte>)
    requires |a| == |b| && LittleEndian(a) == LittleEndian(b)
    ensures a == b
  {
    if |a| > 0 {
      var x := LittleEndian(a);
      DivModUnique(x, 256, LittleEndian(a[1..]), a[0]);
      DivModUnique(x, 256, LittleEndian(b[1..]), b[0]);
      LittleEndianInjective(a[1..], b[1..]);
      assert a == [a[0]] + a[1..] && b == [b[0]] + b[1..];
    }
  }

  lemma ByteStep(x: int, r: int, p: int, y: int)
    ensures x + 256 * (r + p * y) == (x + 256 * r) + (256 * p) * y
  {
  }

  /** The shortest little-endian form of n: no trailing zero byte, and empty
      for zero. */
  function Minimal(n: nat): (s: seq<byte>)
    ensures LittleEndian(s) == n
    ensures |s| == 0 || s[|s| - 1] != 0
    decreases n
  {
    if n == 0 then [] else [n % 256] + Minimal(n / 256)
  }

  /** A byte string without a trailing zero byte is the minimal form of its
      own value. */
  lemma {:induction false} MinimalUnique(s: seq<byte>)
    requires |s| == 0 || s[|s| - 1] != 0
    ensures s == Minimal(LittleEndian(s))
  {
    if |s| > 0 {
      var t := s[1..];
      assert |t| == 0 || t[|t| - 1] != 0;
      MinimalUnique(t);
      var n := LittleEndian(s);
      DivModUnique(n, 256, LittleEndian(t), s[0]);
      assert n != 0;
      assert s == [s[0]] + t;
    }
  }

  /** The minimal form never needs more bytes than a bound on the value
      allows. */
  lemma {:induction false} MinimalLength(n: nat, k: nat)
    requires n < Pow2(8 * k)
    ensures |Minimal(n)| <= k
  {
    if n > 0 {
      assert k > 0;
      Pow2Plus8(8 * (k - 1));
      DivBoundBy(n, 256, Pow2(8 * (k - 1)));
      MinimalLength(n / 256, k - 1);
    }
  }

  function Zeros(n: nat): (s: seq<byte>)
    ensures |s| == n
    ensures forall i :: 0 <= i < n ==> s[i] == 0
  {
    if n == 0 then [] else [0] + Zeros(n - 1)
  }

  /** Zero bytes appended at the high end do not change the value. */
  lemma {:induction false} ZerosAddNothing(s: seq<byte>, n: nat)
    ensures LittleEndian(s + Zeros(n)) == LittleEndian(s)
  {
    LittleEndianAppend(s, Zeros(n));
    ZerosValue(n);
  }

  lemma {:induction false} ZerosValue(n: nat)
    ensures LittleEndian(Zeros(n)) == 0
  {
    if n > 0 {
      assert Zeros(n)[1..] == Zeros(n - 1);
      ZerosValue(n - 1);
    }
  }
}

=== FILE: corrected.dfy ===
/** The encoder with a fixed region of exactly the length the decoder
    reads. The field loop flushes every complete byte, zero bytes included,
    and the final flush emits the last partial byte, so with fields of at
    most 24 bits the i32 register never reaches bit 31. It differs from
    `to_buffer` (src/main.rs:107-161) only in the `int > 0` conditions of the
    two flush loops (lines 135 and 142) and in writing one zero byte for a
    schema without fixed-width bits. */
module Corrected {
  import opened Binary
  import opened Fields
  import opened Schemas
  import opened Encoder
  import opened Decoder
  import opened RoundTrip

  /** Emit the low byte while at least `threshold` bits are pending, whatever
      its value. */
  function FlushEager(e: Encoding, threshold: int): (r: Encoding)
    requires threshold >= 1
    ensures Represented(r) == Represented(e)
    ensures Offset(r) == Offset(e)
    ensures r.pending < threshold
    ensures e.pending >= threshold - 8 ==> r.pending >= threshold - 8
    ensures Fits(e) ==> Fits(r)
    decreases e.pending - threshold + 8
  {
    if e.pending >= threshold then
      FlushStep(e);
      FlushEager(Encoding(e.acc / 256, e.pending - 8, e.out + [e.acc % 256]), threshold)
    else
      e
  }

  /** One iteration of the field loop with the eager flush. */
  function EncodeFieldEager(f: Field, v: Value, e: Encoding): (r: Encoding)
    requires e.pending >= 0 && Normalizable(f, v)
    ensures 0 <= r.pending < 8
  {
    match SlotOf(f, v)
    case None => FlushEager(e, 8)
    case Some(s) => FlushEager(Put(e, s), 8)
  }

  function EncodeFieldsEager(fields: seq<Field>, values: map<string, Value>, e: Encoding): (r: Encoding)
    requires e.pending >= 0 && Encodable(fields, values)
    ensures r.pending >= 0
  {
    if |fields| == 0 then e
    else EncodeFieldsEager(fields[1..], values, EncodeFieldEager(fields[0], values[fields[0].name], e))
  }

  /** The fixed region: every pending bit is emitted, and a schema without
      fixed-width bits still gets the one byte the decoder reads first. */
  function FixedRegionEager(fields: seq<Field>, values: map<string, Value>): (fixed: seq<byte>)
    requires Encodable(fields, values)
    ensures |fixed| >= 1
  {
    var out := FlushEager(EncodeFieldsEager(fields, values, Encoding(0, 0, [])), 1).out;
    if |out| == 0 then [0] else out
  }

  /** The corrected `to_buffer`: the fixed region, then the payloads spliced
      in as before. */
  function ToBufferEager(schema: Schema, values: map<string, Value>): (r: seq<byte>)
    requires Encodable(schema.fields, values)
    ensures var fixed := FixedRegionEager(schema.fields, values);
            |r| >= |fixed| && r[..|fixed|] == fixed
  {
    var fixed := FixedRegionEager(schema.fields, values);
    var r := fixed + ConcatReversed(Payloads(schema.fields, values));
    assert r[..|fixed|] == fixed;
    r
  }

  /** One field adds its contribution at the current offset. */
  lemma EncodeFieldEagerSpec(f: Field, v: Value, e: Encoding)
    requires e.pending >= 0 && Fits(e) && Normalizable(f, v)
    requires Contribution(SlotOf(f, v)).value < Pow2(Contribution(SlotOf(f, v)).width)
    ensures var r := EncodeFieldEager(f, v, e);
            var c := Contribution(SlotOf(f, v));
            && Represented(r) == Represented(e) + Pow2(Offset(e)) * c.value
            && Offset(r) == Offset(e) + c.width
            && Fits(r)
  {
    if SlotOf(f, v).Some? {
      PutSpec(e, SlotOf(f, v).value);
    }
  }

  /** The eager field loop adds the packed slots at the starting offset. */
  lemma {:induction false} EncodeFieldsEagerSpec(fields: seq<Field>, values: map<string, Value>, e: Encoding)
    requires e.pending >= 0 && Fits(e)
    requires Encodable(fields, values)
    requires SlotsFit(Slots(fields, values))
    ensures var r := EncodeFieldsEager(fields, values, e);
            && Represented(r) == Represented(e) + Pow2(Offset(e)) * Pack(Slots(fields, values))
            && Offset(r) == Offset(e) + SlotsWidth(Slots(fields, values))
            && Fits(r)
  {
    if |fields| > 0 {
      var f := fields[0];
      var v := values[f.name];
      SlotsStep(fields, values);
      var c := Contribution(SlotOf(f, v));
      var e1 := EncodeFieldEager(f, v, e);
      EncodeFieldEagerSpec(f, v, e);
      EncodeFieldsEagerSpec(fields[1..], values, e1);
      var r := EncodeFieldsEager(fields[1..], values, e1);
      PackStep(Represented(e), Offset(e), c.value, c.width,
               Represented(e1), Offset(e1), Pack(Slots(fields[1..], values)), Represented(r),
               Pack(Slots(fields, values)));
    } else {
      var p := Pow2(Offset(e));
      assert Pack(Slots(fields, values)) == 0;
      assert p * 0 == 0;
    }
  }

  /** After the final flush nothing is pending and the emitted bytes hold
      exactly the packed slots, in the number of bytes the decoder reads. */
  lemma FinalFlushEager(fields: seq<Field>, values: map<string, Value>)
    requires AllResolved(fields) && ValuesInRange(fields, values)
    ensures Encodable(fields, values)
    ensures var out := FlushEager(EncodeFieldsEager(fields, values, Encoding(0, 0, [])), 1).out;
            && LittleEndian(out) == Pack(Slots(fields, values))
            && 8 * |out| - 7 <= TotalWidth(fields) <= 8 * |out|
  {
    InRangeSlots(fields, values);
    var init := Encoding(0, 0, []);
    assert Represented(init) == 0 && Offset(init) == 0 && Pow2(0) == 1;
    EncodeFieldsEagerSpec(fields, values, init);
    var e := EncodeFieldsEager(fields, values, init);
    var r := FlushEager(e, 1);
    Emptied(r);
  }

  /** Registers with no bit pending hold nothing beyond the emitted bytes. */
  lemma Emptied(r: Encoding)
    requires r.pending <= 0 && Fits(r)
    ensures r.acc == 0 && Represented(r) == LittleEndian(r.out)
  {
    assert Pow2(if r.pending < 0 then 0 else r.pending) == 1;
    var p := Pow2(8 * |r.out|);
    assert p * r.acc == 0;
  }

  /** In range, the corrected fixed region is the original one padded with
      zero bytes to the length the decoder consumes. */
  lemma EagerIsPadded(fields: seq<Field>, values: map<string, Value>)
    requires AllResolved(fields) && ValuesInRange(fields, values)
    ensures Encodable(fields, values)
    ensures FixedRegionEager(fields, values) == PaddedRegion(fields, values)
    ensures |FixedRegionEager(fields, values)| == FixedLength(TotalWidth(fields))
  {
    FinalFlushEager(fields, values);
    PaddedFixedRegion(fields, values);
    var out := FlushEager(EncodeFieldsEager(fields, values, Encoding(0, 0, [])), 1).out;
    var fixed := FixedRegionEager(fields, values);
    var w := TotalWidth(fields);
    if |out| == 0 {
      assert fixed == [0];
      assert LittleEndian([0]) == 0 by {
        assert [0 as byte][1..] == [];
      }
    } else {
      assert |fixed| == (w + 7) / 8;
    }
    LittleEndianInjective(fixed, PaddedRegion(fields, values));
  }

  /** Every `int |= value << written_bytes` of the eager loop is exact on an
      i32 register. */
  predicate EagerInRegister(fields: seq<Field>, values: map<string, Value>, e: Encoding)
    requires e.pending >= 0 && Encodable(fields, values)
  {
    || |fields| == 0
    || (&& (match SlotOf(fields[0], values[fields[0].name])
            case None => true
            case Some(s) => PutInRegister(e, s))
        && EagerInRegister(fields[1..], values, EncodeFieldEager(fields[0], values[fields[0].name], e)))
  }

  /** With fewer than 8 bits pending before each field and no field wider
      than 24 bits, the register never reaches bit 31. */
  lemma {:induction false} EagerStaysInRegister(fields: seq<Field>, values: map<string, Value>, e: Encoding)
    requires AllResolved(fields) && ValuesInRange(fields, values) && FitsRegister(fields)
    requires 0 <= e.pending < 8 && Fits(e)
    ensures Encodable(fields, values)
    ensures EagerInRegister(fields, values, e)
  {
    if |fields| > 0 {
      var f := fields[0];
      var v := values[f.name];
      FitsRegisterTail(fields);
      InRangeTail(fields, values);
      InRangeSlot(f, v);
      PutStaysInRegister(e, SlotOf(f, v).value);
      EagerStaysInRegister(fields[1..], values, EncodeFieldEager(f, v, e));
    }
  }

  /** A slot of at most 24 bits written at an offset below 8 stays below the
      sign bit. */
  lemma PutStaysInRegister(e: Encoding, s: Slot)
    requires 0 <= e.pending < 8 && Fits(e)
    requires s.width <= 24 && s.value < Pow2(s.width)
    ensures PutInRegister(e, s) && Fits(Put(e, s))
  {
    var shifted := Shl(s.value, e.pending);
    ShlIsMul(s.value, e.pending);
    BitOrDisjoint(e.acc, s.value, e.pending);
    RegisterArith(e.acc, s.value, e.pending, s.width, shifted);
  }

  lemma RegisterArith(acc: nat, v: nat, p: nat, w: nat, shifted: nat)
    requires acc < Pow2(p) && v < Pow2(w) && p + w <= 31 && shifted == v * Pow2(p)
    ensures shifted < Pow2(31) && acc + shifted < Pow2(31) && acc + shifted < Pow2(p + w)
  {
    PutFits(acc, v, p, w);
    Pow2Monotone(p + w, 31);
  }

  /** The corrected encoder round-trips every in-range map of a resolved
      schema with at most one Bytes field. When no field is wider than 24
      bits, both sides stay inside their i32 registers, so the natural-number
      model is what the source computes. */
  lemma RoundTripEager(schema: Schema, values: map<string, Value>)
    requires AllResolved(schema.fields) && ValuesInRange(schema.fields, values)
    requires |BytesFields(schema.fields)| <= 1
    ensures Encodable(schema.fields, values)
    ensures ToBufferEager(schema, values) == ToBufferPadded(schema, values)
    ensures FromBuffer(schema, ToBufferEager(schema, values)).Success?
    ensures Recovers(FromBuffer(schema, ToBufferEager(schema, values)), schema.fields, values)
    ensures var buffer := ToBufferEager(schema, values);
            FitsRegister(schema.fields) ==>
              && EagerInRegister(schema.fields, values, Encoding(0, 0, []))
              && FieldsInRegister(buffer, schema.fields, Decoding(buffer[0], 8, 1, map[]))
  {
    EagerIsPadded(schema.fields, values);
    RoundTripPadded(schema, values);
    var buffer := ToBufferEager(schema, values);
    if FitsRegister(schema.fields) {
      assert Fits(Encoding(0, 0, [])) by {
        assert Pow2(0) == 1;
      }
      EagerStaysInRegister(schema.fields, values, Encoding(0, 0, []));
      FromBufferInRegister(schema, buffer);
    }
  }

  /** A schema built by `construct` from declarations with at most one Bytes
      field encodes, with the corrected encoder, and decodes every in-range
      map back to itself. */
  lemma ConstructedRoundTrip(decls: seq<FieldDecl>, values: map<string, Value>)
    requires forall i :: 0 <= i < |decls| ==> ValidDecl(decls[i])
    requires BytesDeclCount(decls) <= 1
    requires ValuesInRange(Construct(decls).fields, values)
    ensures Encodable(Construct(decls).fields, values)
    ensures FromBuffer(Construct(decls), ToBufferEager(Construct(decls), values)).Success?
    ensures Recovers(FromBuffer(Construct(decls), ToBufferEager(Construct(decls), values)), Construct(decls).fields, values)
    ensures var schema, buffer := Construct(decls), ToBufferEager(Construct(decls), values);
            FitsRegister(schema.fields) ==>
              && EagerInRegister(schema.fields, values, Encoding(0, 0, []))
              && FieldsInRegister(buffer, schema.fields, Decoding(buffer[0], 8, 1, map[]))
  {
    BytesDeclsResolve(decls);
    RoundTripEager(Construct(decls), values);
  }
}

=== FILE: decoder.dfy ===
/** The decoder (`Schema::from_buffer`, src/main.rs:163-215). It reads the
    fields back from an accumulator that is topped up one input byte at a
    time, and takes a Bytes payload from the end of the whole input. Each
    place where the source would panic on an index is a Failure here. */
module Decoder {
  import opened Binary
  import opened Fields
  import opened Schemas

  datatype DecodeError =
    | EmptyBuffer                   // `buffer[0]` on an empty input (line 166)
    | BufferUnderrun(field: string) // `buffer[buffer_index]` past the end (line 190)
    | InvalidLength(field: string)  // `buffer.len() - length` below zero (line 210)

  datatype Result<T> = Success(value: T) | Failure(error: DecodeError)

  /** The decoder's registers: the accumulator `int`, the count `read_bits` of
      valid bits in it, the next input position `buffer_index`, and the map
      built so far. */
  datatype Decoding = Decoding(acc: nat, readBits: nat, index: nat, values: map<string, Value>)

  /** The top-up loop (lines 189-193): pull input bytes in above the valid
      bits until at least `bits` are available. */
  function TopUp(buffer: seq<byte>, d: Decoding, bits: nat, name: string): (r: Result<Decoding>)
    ensures r.Success? ==> r.value.readBits >= bits && r.value.values == d.values
    ensures r.Failure? ==> r.error == BufferUnderrun(name)
    decreases bits - d.readBits
  {
    if d.readBits >= bits then Success(d)
    else if d.index >= |buffer| then Failure(BufferUnderrun(name))
    else
      var acc := BitOr(d.acc, Shl(buffer[d.index], d.readBits));
      TopUp(buffer, Decoding(acc, d.readBits + 8, d.index + 1, d.values), bits, name)
  }

  /** One iteration of the field loop (lines 173-211). */
  function DecodeField(buffer: seq<byte>, f: Field, d: Decoding): Result<Decoding>
  {
    if f.Int? && f.alwaysPresent then
      Success(d.(values := d.values[f.name := IntValue(f.min)]))
    else
      match TopUp(buffer, d, Width(f), f.name)
      case Failure(e) => Failure(e)
      case Success(t) => Extract(buffer, f, t)
  }

  /** Taking one field's bits out of topped-up registers (lines 195-210). */
  function Extract(buffer: seq<byte>, f: Field, t: Decoding): Result<Decoding>
    requires t.readBits >= Width(f)
  {
    match f
    case Int(name, min, _, bits, _) =>
      Success(Decoding(Shr(t.acc, bits), t.readBits - bits, t.index,
                       t.values[name := IntValue(Low(t.acc, bits) + min)]))
    case Boolean(name) =>
      Success(Decoding(Shr(t.acc, 1), t.readBits - 1, t.index,
                       t.values[name := BooleanValue(Low(t.acc, 1) == 1)]))
    case Bytes(name, _, bits) =>
      var length := Low(t.acc, bits);
      if length > |buffer| then Failure(InvalidLength(name))
      else
        Success(Decoding(Shr(t.acc, bits), t.readBits - bits, t.index,
                         t.values[name := Buffer(buffer[|buffer| - length..])]))
  }

  /** The field loop (lines 172-212) over the remaining fields. */
  function DecodeFields(buffer: seq<byte>, fields: seq<Field>, d: Decoding): Result<Decoding>
  {
    if |fields| == 0 then Success(d)
    else
      match DecodeField(buffer, fields[0], d)
      case Failure(e) => Failure(e)
      case Success(d') => DecodeFields(buffer, fields[1..], d')
  }

  /** Bits [offset, offset + width) of the whole input read as one
      little-endian number. */
  function ReadBits(buffer: seq<byte>, offset: nat, width: nat): nat
  {
    Low(Shr(LittleEndian(buffer), offset), width)
  }

  /** The bits read are the input's value shifted down by the offset, modulo
      2^width. */
  lemma ReadBitsValue(buffer: seq<byte>, offset: nat, width: nat)
    ensures ReadBits(buffer, offset, width) == (LittleEndian(buffer) / Pow2(offset)) % Pow2(width)
  {
    ShrIsDiv(LittleEndian(buffer), offset);
    LowIsMod(Shr(LittleEndian(buffer), offset), width);
  }

  /** A position of the reference decoder: the next bit offset and the map
      built so far. */
  datatype Position = Position(offset: nat, values: map<string, Value>)

  /** One field of the reference decoder, with no accumulator: a field that is
      not always present occupies the next `Width` bits of the input, read at
      an absolute bit offset; a field reaching past the last input bit is an
      underrun, and a payload is the last `length` bytes of the input. */
  function ReferenceField(buffer: seq<byte>, f: Field, p: Position): Result<Position>
  {
    if f.Int? && f.alwaysPresent then
      Success(Position(p.offset, p.values[f.name := IntValue(f.min)]))
    else if p.offset + Width(f) > 8 * |buffer| then
      Failure(BufferUnderrun(f.name))
    else
      var v := ReadBits(buffer, p.offset, Width(f));
      var next := p.offset + Width(f);
      match f
      case Int(name, min, _, _, _) =>
        Success(Position(next, p.values[name := IntValue(v + min)]))
      case Boolean(name) =>
        Success(Position(next, p.values[name := BooleanValue(v == 1)]))
      case Bytes(name, _, _) =>
        if v > |buffer| then Failure(InvalidLength(name))
        else Success(Position(next, p.values[name := Buffer(buffer[|buffer| - v..])]))
  }

  function ReferenceDecode(buffer: seq<byte>, fields: seq<Field>, p: Position): Result<map<string, Value>>
  {
    if |fields| == 0 then Success(p.values)
    else
      match ReferenceField(buffer, fields[0], p)
      case Failure(e) => Failure(e)
      case Success(p') => ReferenceDecode(buffer, fields[1..], p')
  }

  /** `Schema::from_buffer`: the decoder reads exactly what the reference
      decoder reads, for every input. */
  function FromBuffer(schema: Schema, buffer: seq<byte>): (r: Result<map<string, Value>>)
    ensures |buffer| == 0 ==> r == Failure(EmptyBuffer)
    ensures |buffer| > 0 ==> r == ReferenceDecode(buffer, schema.fields, Position(0, map[]))
  {
    if |buffer| == 0 then Failure(EmptyBuffer)
    else
      var init := Decoding(buffer[0], 8, 1, map[]);
      InitialTracks(buffer);
      DecodeFieldsMatchReference(buffer, schema.fields, init, 0);
      match DecodeFields(buffer, schema.fields, init)
      case Failure(e) => Failure(e)
      case Success(d) => Success(d.values)
  }

  /** The registers hold the input from bit `offset` on: the low `readBits`
      bits in the accumulator, the rest still in the input from `index`. */
  ghost predicate Tracks(buffer: seq<byte>, d: Decoding, offset: nat)
  {
    && d.index <= |buffer|
    && d.readBits + offset == 8 * d.index
    && d.acc < Pow2(d.readBits)
    && d.acc + Pow2(d.readBits) * LittleEndian(buffer[d.index..]) == LittleEndian(buffer) / Pow2(offset)
  }

  lemma InitialTracks(buffer: seq<byte>)
    requires |buffer| > 0
    ensures Tracks(buffer, Decoding(buffer[0], 8, 1, map[]), 0)
  {
    assert Pow2(8) == 256;
    assert buffer[0..] == buffer;
    assert buffer[1..] == buffer[0..][1..];
  }

  lemma TopUpStep(buffer: seq<byte>, d: Decoding, offset: nat)
    requires Tracks(buffer, d, offset) && d.index < |buffer|
    ensures Tracks(buffer, Decoding(BitOr(d.acc, Shl(buffer[d.index], d.readBits)),
                                    d.readBits + 8, d.index + 1, d.values), offset)
  {
    var b := buffer[d.index];
    var rb := d.readBits;
    ShlIsMul(b, rb);
    BitOrDisjoint(d.acc, b, rb);
    assert Pow2(8) == 256;
    PutFitsByte(d.acc, b, rb);
    assert buffer[d.index..][1..] == buffer[d.index + 1..];
    var rest := LittleEndian(buffer[d.index + 1..]);
    assert LittleEndian(buffer[d.index..]) == b + 256 * rest;
    Pow2Add(rb, 8);
    Regather(d.acc, b, Pow2(rb), rest);
  }

  lemma PutFitsByte(acc: nat, b: byte, rb: nat)
    requires acc < Pow2(rb)
    ensures acc + b * Pow2(rb) < Pow2(rb + 8)
  {
    Pow2Add(rb, 8);
    assert Pow2(8) == 256;
    assert b * Pow2(rb) <= 255 * Pow2(rb);
  }

  lemma Regather(acc: int, b: int, p: int, rest: int)
    ensures acc + b * p + (p * 256) * rest == acc + p * (b + 256 * rest)
  {
  }

  /** Topping up fails exactly when the field would reach past the last
      input bit. */
  lemma {:induction false} TopUpTracks(buffer: seq<byte>, d: Decoding, offset: nat, bits: nat, name: string)
    requires Tracks(buffer, d, offset)
    ensures TopUp(buffer, d, bits, name).Failure? <==> offset + bits > 8 * |buffer|
    ensures TopUp(buffer, d, bits, name).Success? ==> Tracks(buffer, TopUp(buffer, d, bits, name).value, offset)
    decreases bits - d.readBits
  {
    if d.readBits < bits && d.index < |buffer| {
      TopUpStep(buffer, d, offset);
      var acc := BitOr(d.acc, Shl(buffer[d.index], d.readBits));
      TopUpTracks(buffer, Decoding(acc, d.readBits + 8, d.index + 1, d.values), offset, bits, name);
    }
  }

  /** Taking the low w bits out of the accumulator reads bits
      [offset, offset + w) and leaves the registers tracking offset + w. */
  lemma ExtractTracks(buffer: seq<byte>, t: Decoding, offset: nat, w: nat, values: map<string, Value>)
    requires Tracks(buffer, t, offset) && t.readBits >= w
    ensures Low(t.acc, w) == ReadBits(buffer, offset, w)
    ensures Tracks(buffer, Decoding(Shr(t.acc, w), t.readBits - w, t.index, values), offset + w)
  {
    var L := LittleEndian(buffer);
    ExtractArith(t.acc, LittleEndian(buffer[t.index..]), L, t.readBits, offset, w);
    ReadBitsValue(buffer, offset, w);
  }

  /** The arithmetic of ExtractTracks: `acc` holds the low `rb` bits of
      `L >> offset` and `x` the rest. */
  lemma ExtractArith(acc: nat, x: nat, L: nat, rb: nat, offset: nat, w: nat)
    requires w <= rb && acc < Pow2(rb)
    requires acc + Pow2(rb) * x == L / Pow2(offset)
    ensures Low(acc, w) == (L / Pow2(offset)) % Pow2(w)
    ensures Shr(acc, w) < Pow2(rb - w)
    ensures Shr(acc, w) + Pow2(rb - w) * x == L / Pow2(offset + w)
  {
    ShrIsDiv(acc, w);
    LowIsMod(acc, w);
    SplitBelow(acc, x, rb, w);
    DivDiv(L, offset, w);
    assert w + (rb - w) == rb;
    DivBound(acc, w, rb - w);
  }

  function ValuesOf(r: Result<Decoding>): Result<map<string, Value>>
  {
    match r
    case Failure(e) => Failure(e)
    case Success(d) => Success(d.values)
  }

  /** A register step and a reference step have the same outcome, and on
      success the registers track the reference offset. */
  ghost predicate Agree(buffer: seq<byte>, r: Result<Decoding>, s: Result<Position>)
  {
    && (r.Failure? <==> s.Failure?)
    && (r.Failure? ==> r.error == s.error)
    && (r.Success? ==> r.value.values == s.value.values && Tracks(buffer, r.value, s.value.offset))
  }

  /** One field read from the registers and by the reference decoder gives
      the same outcome, and the registers go on tracking the reference
      offset. */
  lemma DecodeFieldMatchesReference(buffer: seq<byte>, f: Field, d: Decoding, offset: nat)
    requires Tracks(buffer, d, offset)
    ensures Agree(buffer, DecodeField(buffer, f, d), ReferenceField(buffer, f, Position(offset, d.values)))
  {
    if !(f.Int? && f.alwaysPresent) {
      var w := Width(f);
      TopUpTracks(buffer, d, offset, w, f.name);
      var top := TopUp(buffer, d, w, f.name);
      if top.Success? {
        ExtractMatches(buffer, f, top.value, offset);
      }
    }
  }

  /** Extracting a field from tracked registers reads what the reference
      decoder reads at that offset. */
  lemma ExtractMatches(buffer: seq<byte>, f: Field, t: Decoding, offset: nat)
    requires Tracks(buffer, t, offset) && t.readBits >= Width(f)
    requires !(f.Int? && f.alwaysPresent)
    ensures Agree(buffer, Extract(buffer, f, t), ReferenceField(buffer, f, Position(offset, t.values)))
  {
    var w := Width(f);
    ExtractTracks(buffer, t, offset, w, map[]);
    assert offset + w <= 8 * |buffer|;
    match f
    case Int(name, min, _, _, _) =>
      ExtractTracks(buffer, t, offset, w, t.values[name := IntValue(Low(t.acc, w) + min)]);
    case Boolean(name) =>
      ExtractTracks(buffer, t, offset, w, t.values[name := BooleanValue(Low(t.acc, w) == 1)]);
    case Bytes(name, _, _) =>
      var length := Low(t.acc, w);
      if length <= |buffer| {
        ExtractTracks(buffer, t, offset, w, t.values[name := Buffer(buffer[|buffer| - length..])]);
      }
  }

  /** The register-based field loop and the reference decoder agree from
      any tracked state on. */
  lemma {:induction false} DecodeFieldsMatchReference(buffer: seq<byte>, fields: seq<Field>, d: Decoding, offset: nat)
    requires Tracks(buffer, d, offset)
    ensures ValuesOf(DecodeFields(buffer, fields, d)) == ReferenceDecode(buffer, fields, Position(offset, d.values))
  {
    if |fields| > 0 {
      DecodeFieldMatchesReference(buffer, fields[0], d, offset);
      var r := DecodeField(buffer, fields[0], d);
      if r.Success? {
        var s := ReferenceField(buffer, fields[0], Position(offset, d.values));
        DecodeFieldsMatchReference(buffer, fields[1..], r.value, s.value.offset);
      }
    }
  }

  /** The top-up loop is exact on the source's i32 register while every
      `(byte as i32) << read_bits` has a shift amount below 32 and every
      result stays below bit 31, the sign bit. */
  predicate TopUpInRegister(buffer: seq<byte>, d: Decoding, bits: nat)
    decreases bits - d.readBits
  {
    || d.readBits >= bits
    || d.index >= |buffer|
    || (&& d.readBits < 32
        && BitOr(d.acc, Shl(buffer[d.index], d.readBits)) < Pow2(31)
        && TopUpInRegister(buffer, Decoding(BitOr(d.acc, Shl(buffer[d.index], d.readBits)),
                                            d.readBits + 8, d.index + 1, d.values), bits))
  }

  /** One field is exact on the i32 register: its top-up stays below the sign
      bit, and its mask `(1 << bits) - 1` and shift `int >>= bits` need no
      more than 30 bits. */
  predicate FieldInRegister(buffer: seq<byte>, f: Field, d: Decoding)
  {
    (f.Int? && f.alwaysPresent) || (Width(f) <= 30 && TopUpInRegister(buffer, d, Width(f)))
  }

  /** Every field the loop reads from `d` on is exact on the i32 register. */
  predicate FieldsInRegister(buffer: seq<byte>, fields: seq<Field>, d: Decoding)
  {
    || |fields| == 0
    || (&& FieldInRegister(buffer, fields[0], d)
        && match DecodeField(buffer, fields[0], d)
           case Failure(_) => true
           case Success(d') => FieldsInRegister(buffer, fields[1..], d'))
  }

  /** Registers holding at most 31 valid bits, and nothing above them. */
  predicate Narrow(d: Decoding)
  {
    d.readBits <= 31 && d.acc < Pow2(d.readBits)
  }

  /** Topping up for at most 24 bits never reaches the sign bit, and leaves
      narrow registers. */
  lemma {:induction false} TopUpStaysInRegister(buffer: seq<byte>, d: Decoding, bits: nat, name: string)
    requires bits <= 24 && Narrow(d)
    ensures TopUpInRegister(buffer, d, bits)
    ensures TopUp(buffer, d, bits, name).Success? ==> Narrow(TopUp(buffer, d, bits, name).value)
    decreases bits - d.readBits
  {
    if d.readBits < bits && d.index < |buffer| {
      var b, rb := buffer[d.index], d.readBits;
      ShlIsMul(b, rb);
      BitOrDisjoint(d.acc, b, rb);
      PutFitsByte(d.acc, b, rb);
      Pow2Monotone(rb + 8, 31);
      var next := Decoding(BitOr(d.acc, Shl(b, rb)), rb + 8, d.index + 1, d.values);
      TopUpStaysInRegister(buffer, next, bits, name);
    }
  }

  /** Taking w of the valid bits out leaves narrow registers. */
  lemma ExtractStaysNarrow(acc: nat, rb: nat, w: nat)
    requires w <= rb <= 31 && acc < Pow2(rb)
    ensures Shr(acc, w) < Pow2(rb - w)
  {
    ShrIsDiv(acc, w);
    assert w + (rb - w) == rb;
    DivBound(acc, w, rb - w);
  }

  /** A field of at most 24 bits is read inside the register and leaves
      narrow registers behind. */
  lemma FieldStaysInRegister(buffer: seq<byte>, f: Field, d: Decoding)
    requires Width(f) <= 24 && Narrow(d)
    ensures FieldInRegister(buffer, f, d)
    ensures DecodeField(buffer, f, d).Success? ==> Narrow(DecodeField(buffer, f, d).value)
  {
    if !(f.Int? && f.alwaysPresent) {
      TopUpStaysInRegister(buffer, d, Width(f), f.name);
      var top := TopUp(buffer, d, Width(f), f.name);
      if top.Success? {
        ExtractStaysNarrow(top.value.acc, top.value.readBits, Width(f));
      }
    }
  }

  lemma {:induction false} FieldsStayInRegister(buffer: seq<byte>, fields: seq<Field>, d: Decoding)
    requires FitsRegister(fields) && Narrow(d)
    ensures FieldsInRegister(buffer, fields, d)
  {
    if |fields| > 0 {
      FitsRegisterTail(fields);
      FieldStaysInRegister(buffer, fields[0], d);
      var r := DecodeField(buffer, fields[0], d);
      if r.Success? {
        FieldsStayInRegister(buffer, fields[1..], r.value);
      }
    }
  }

  /** When no field is wider than 24 bits, `from_buffer` never reaches the
      sign bit of its i32 register, on any input: its natural-number model
      here computes what the source computes. */
  lemma FromBufferInRegister(schema: Schema, buffer: seq<byte>)
    requires FitsRegister(schema.fields) && |buffer| > 0
    ensures FieldsInRegister(buffer, schema.fields, Decoding(buffer[0], 8, 1, map[]))
  {
    assert Pow2(8) == 256;
    FieldsStayInRegister(buffer, schema.fields, Decoding(buffer[0], 8, 1, map[]));
  }
}

=== FILE: driver.dfy ===
/** The demonstration in `main` (src/main.rs:218-251) encodes a map whose
    Bytes field `buffer` (at most 1000 bytes, so 10 length bits) holds the
    payload "hello world", then decodes the result. Its fixed region spans 43
    bits, so the decoder reads six bytes of it, but the encoder drops the zero
    high byte and writes five. The decoder then takes the payload's first byte
    as the missing high byte. This module proves the same effect on the
    `buffer` field declared alone: the decoded length picks up bits of the
    payload's first byte, so "hello world" comes back and "world" does not. */
module Driver {
  import opened Binary
  import opened Fields
  import opened Schemas
  import opened Encoder
  import opened Decoder
  import opened RoundTrip
  import opened Corrected

  /** The `buffer` declaration of `main`. */
  function PayloadDecls(): seq<FieldDecl>
  {
    [BytesDecl("buffer", 1000)]
  }

  function PayloadField(): Field
  {
    Bytes("buffer", 1000, 10)
  }

  function PayloadMap(data: seq<byte>): map<string, Value>
  {
    map["buffer" := Buffer(data)]
  }

  /** "hello world" as UTF-8 bytes; the first byte, 'h', is 0x68. */
  function Hello(): seq<byte>
  {
    [104, 101, 108, 108, 111, 32, 119, 111, 114, 108, 100]
  }

  /** "world" as UTF-8 bytes; the first byte, 'w', is 0x77. */
  function World(): seq<byte>
  {
    [119, 111, 114, 108, 100]
  }

  lemma Pow2Of10()
    ensures Pow2(9) == 512 && Pow2(10) == 1024
  {
    Pow2Add(5, 5);
    Pow2Add(4, 5);
  }

  /** A payload of up to 1000 bytes needs a 10-bit length. */
  lemma PayloadWidth()
    ensures CeilLog2(1001) == 10
  {
    Pow2Of10();
    CeilLog2Least(1001, 10);
  }

  /** `construct` gives the field 10 length bits. */
  lemma PayloadSchema()
    ensures Resolved(PayloadField())
    ensures Construct(PayloadDecls()) == Schema([PayloadField()], 1)
  {
    PayloadWidth();
    var f := PayloadField();
    assert ResolveAll(PayloadDecls()) == [f];
    assert [f][1..] == [];
    assert BytesFields([f]) == [f] + BytesFields([]) == [f];
    assert FixedFields([f]) == FixedFields([]) == [];
  }

  /** The length is read from the first two bytes: all of the first, and the
      low two bits of the second. */
  lemma LengthBits(buffer: seq<byte>)
    requires |buffer| >= 2
    ensures ReadBits(buffer, 0, 10) == buffer[0] as int + 256 * (buffer[1] as int % 4)
  {
    ReadBitsValue(buffer, 0, 10);
    Pow2Of10();
    var b0, b1: int := buffer[0], buffer[1];
    var rest := LittleEndian(buffer[2..]);
    assert LittleEndian(buffer[1..]) == b1 + 256 * rest by {
      assert buffer[1..][1..] == buffer[2..];
    }
    var x := LittleEndian(buffer);
    assert x == b0 + 256 * b1 + 65536 * rest;
    assert x / Pow2(0) == x;
    var q := b1 / 4 + 64 * rest;
    var r := b0 + 256 * (b1 % 4);
    assert 256 * b1 == 1024 * (b1 / 4) + 256 * (b1 % 4);
    assert q * 1024 == 1024 * (b1 / 4) + 65536 * rest;
    DivModUnique(x, 1024, q, r);
  }

  /** Decoding the `buffer` field alone: the payload is the last `length`
      bytes, where `length` is the 10 bits read at offset 0, or an invalid
      length when it exceeds the input. */
  lemma DecodePayload(schema: Schema, buffer: seq<byte>)
    requires schema.fields == [PayloadField()] && |buffer| >= 2
    ensures var v := buffer[0] as int + 256 * (buffer[1] as int % 4);
            && (v > |buffer| ==> FromBuffer(schema, buffer) == Failure(InvalidLength("buffer")))
            && (v <= |buffer| ==>
                  FromBuffer(schema, buffer) == Success(map["buffer" := Buffer(buffer[|buffer| - v..])]))
  {
    var f := PayloadField();
    var v := buffer[0] as int + 256 * (buffer[1] as int % 4);
    var p := Position(0, map[]);
    assert [f][1..] == [];
    LengthBits(buffer);
    if v <= |buffer| {
      var p' := Position(10, map["buffer" := Buffer(buffer[|buffer| - v..])]);
      assert ReferenceField(buffer, f, p) == Success(p');
      assert ReferenceDecode(buffer, [f], p) == ReferenceDecode(buffer, [], p');
    }
  }

  /** A payload of 1 to 255 bytes: the length fits one byte, the zero high
      byte of the 10-bit region is dropped, and the payload follows. */
  lemma PayloadEncodes(schema: Schema, data: seq<byte>)
    requires schema == Schema([PayloadField()], 1) && 0 < |data| < 256
    ensures Encodable(schema.fields, PayloadMap(data))
    ensures FixedRegion(schema.fields, PayloadMap(data)) == [|data|]
    ensures Payloads(schema.fields, PayloadMap(data)) == [data]
    ensures ToBuffer(schema, PayloadMap(data)) == [|data|] + data
  {
    var f, values, n := PayloadField(), PayloadMap(data), |data|;
    assert schema.fields == [f] && [f][1..] == [];
    assert values[f.name] == Buffer(data);
    var s := Slot(n, 10);
    assert Slots([f], values) == [s];
    PackSingle(s);
    assert Pow2(10) == 1024;
    assert Minimal(n) == [n] by {
      assert n % 256 == n && n / 256 == 0;
      assert Minimal(0) == [];
    }
    assert Payloads([f], values) == [data];
    assert ConcatReversed([data]) == ConcatReversed([]) + data == data;
  }

  /** Decoding that buffer reads the length's top two bits from the
      payload's first byte: the map comes back exactly when they are zero,
      and otherwise the length reaches before the start of the buffer. */
  lemma PayloadDecodes(schema: Schema, data: seq<byte>)
    requires schema == Schema([PayloadField()], 1) && 0 < |data| < 256
    ensures data[0] % 4 == 0 <==> FromBuffer(schema, [|data|] + data) == Success(PayloadMap(data))
    ensures data[0] % 4 != 0 <==> FromBuffer(schema, [|data|] + data) == Failure(InvalidLength("buffer"))
  {
    var buffer: seq<byte> := [|data|] + data;
    assert buffer[1] == data[0] && buffer[|buffer| - |data|..] == data;
    DecodePayload(schema, buffer);
  }

  /** The encoder as written round-trips a payload of 1 to 255 bytes exactly
      when its first byte has the low two bits clear. */
  lemma PayloadRoundTripIff(schema: Schema, data: seq<byte>)
    requires schema == Schema([PayloadField()], 1) && 0 < |data| < 256
    ensures Encodable(schema.fields, PayloadMap(data))
    ensures ToBuffer(schema, PayloadMap(data)) == [|data|] + data
    ensures data[0] % 4 == 0 <==>
              FromBuffer(schema, ToBuffer(schema, PayloadMap(data))) == Success(PayloadMap(data))
    ensures data[0] % 4 != 0 <==>
              FromBuffer(schema, ToBuffer(schema, PayloadMap(data))) == Failure(InvalidLength("buffer"))
  {
    PayloadEncodes(schema, data);
    PayloadDecodes(schema, data);
  }

  lemma HelloFacts(data: seq<byte>)
    requires data == Hello()
    ensures |data| == 11 && data[0] % 4 == 0
  {
  }

  lemma WorldFacts(data: seq<byte>)
    requires data == World()
    ensures |data| == 5 && data[0] % 4 == 3
  {
  }

  /** "hello world" survives: 0x68 has its low two bits clear. */
  lemma HelloSurvives(schema: Schema, data: seq<byte>)
    requires schema == Construct(PayloadDecls()) && data == Hello()
    ensures Encodable(schema.fields, PayloadMap(data))
    ensures ToBuffer(schema, PayloadMap(data)) == [11] + data
    ensures FromBuffer(schema, ToBuffer(schema, PayloadMap(data))) == Success(PayloadMap(data))
  {
    PayloadSchema();
    HelloFacts(data);
    PayloadRoundTripIff(schema, data);
  }

  /** "world" is lost: 0x77 has its low two bits set, so the decoded length is
      5 + 3 * 256 = 773, past the six bytes of the buffer. */
  lemma WorldIsLost(schema: Schema, data: seq<byte>)
    requires schema == Construct(PayloadDecls()) && data == World()
    ensures Encodable(schema.fields, PayloadMap(data))
    ensures ToBuffer(schema, PayloadMap(data)) == [5] + data
    ensures FromBuffer(schema, ToBuffer(schema, PayloadMap(data))) == Failure(InvalidLength("buffer"))
  {
    PayloadSchema();
    WorldFacts(data);
    PayloadRoundTripIff(schema, data);
  }

  /** The corrected encoder writes the zero high byte of the 10-bit
      region ... */
  lemma PayloadRegionEager(schema: Schema, data: seq<byte>)
    requires schema == Schema([PayloadField()], 1) && 0 < |data| < 256
    ensures Encodable(schema.fields, PayloadMap(data))
    ensures FixedRegionEager(schema.fields, PayloadMap(data)) == [|data|, 0]
  {
    PayloadWidth();
    var f, values, n := PayloadField(), PayloadMap(data), |data|;
    PayloadEncodes(schema, data);
    assert AllResolved([f]) && ValuesInRange([f], values);
    EagerIsPadded([f], values);
    assert FixedLength(TotalWidth([f])) == 2 by {
      assert [f][1..] == [];
    }
    var padded := PaddedRegion([f], values);
    assert |padded| == 2 && padded[..1] == [n] && padded[1] == 0;
    assert padded == [n, 0];
  }

  lemma PayloadEncodesEager(schema: Schema, data: seq<byte>)
    requires schema == Schema([PayloadField()], 1) && 0 < |data| < 256
    ensures Encodable(schema.fields, PayloadMap(data))
    ensures ToBufferEager(schema, PayloadMap(data)) == [|data|, 0] + data
  {
    PayloadEncodes(schema, data);
    PayloadRegionEager(schema, data);
  }

  /** ... and every payload of 1 to 255 bytes comes back. */
  lemma PayloadRoundTripsEager(schema: Schema, data: seq<byte>)
    requires schema == Schema([PayloadField()], 1) && 0 < |data| < 256
    ensures Encodable(schema.fields, PayloadMap(data))
    ensures FromBuffer(schema, ToBufferEager(schema, PayloadMap(data))) == Success(PayloadMap(data))
  {
    PayloadEncodesEager(schema, data);
    var n := |data|;
    var buffer: seq<byte> := [n, 0] + data;
    assert ToBufferEager(schema, PayloadMap(data)) == buffer;
    assert buffer[0] as int + 256 * (buffer[1] as int % 4) == n;
    assert buffer[|buffer| - n..] == data;
    DecodePayload(schema, buffer);
    assert FromBuffer(schema, buffer) == Success(map["buffer" := Buffer(data)]);
  }

  /** "world" comes back from the corrected encoder. */
  lemma WorldKeptWhenCorrected(schema: Schema, data: seq<byte>)
    requires schema == Construct(PayloadDecls()) && data == World()
    ensures Encodable(schema.fields, PayloadMap(data))
    ensures ToBufferEager(schema, PayloadMap(data)) == [5, 0] + data
    ensures FromBuffer(schema, ToBufferEager(schema, PayloadMap(data))) == Success(PayloadMap(data))
  {
    PayloadSchema();
    WorldFacts(data);
    PayloadEncodesEager(schema, data);
    PayloadRoundTripsEager(schema, data);
  }
}

=== FILE: encoder.dfy ===
/** The encoder (`Schema::to_buffer`, src/main.rs:107-161). Each field's
    normalized value is ORed into an accumulator at a running bit offset, whole
    bytes are flushed from the low end as long as the accumulator is nonzero,
    and the raw Bytes payloads are spliced in after the fixed region. */
module Encoder {
  import opened Binary
  import opened Fields
  import opened Schemas

  datatype Option<T> = None | Some(value: T)

  /** An Int value below its field's min would be shifted as a negative i32;
      the model asks the caller not to do that. */
  predicate Normalizable(f: Field, v: Value)
  {
    f.Int? && v.IntValue? ==> v.n >= f.min
  }

  /** What `to_buffer` needs of its map: an entry for every field, always-present
      Int fields included (the `unwrap` calls at lines 116, 122 and 127 run for
      every field), and no Int value below its min. */
  predicate Encodable(fields: seq<Field>, values: map<string, Value>)
  {
    forall i :: 0 <= i < |fields| ==>
      fields[i].name in values && Normalizable(fields[i], values[fields[i].name])
  }

  /** The bits one field puts into the fixed region: a value and the number of
      bit positions the running offset advances by. */
  datatype Slot = Slot(value: nat, width: nat)

  /** One field's contribution (lines 115-133), or None when the map holds a
      value of another variant and the field is skipped without advancing the
      offset. */
  function SlotOf(f: Field, v: Value): (s: Option<Slot>)
    requires Normalizable(f, v)
    ensures s.Some? <==> Matches(f, v)
    ensures s.Some? && f.Int? ==> s.value.value + f.min == v.n
    ensures s.Some? && f.Boolean? ==> (s.value.value == 1 <==> v.b) && s.value.value <= 1
    ensures s.Some? && f.Bytes? ==> s.value.value == |v.data|
    ensures s.Some? ==> s.value.width == Width(f)
  {
    match f
    case Int(_, min, _, bits, _) =>
      if v.IntValue? then Some(Slot(v.n - min, bits)) else None
    case Boolean(_) =>
      if v.BooleanValue? then Some(Slot(if v.b then 1 else 0, 1)) else None
    case Bytes(_, _, bits) =>
      if v.Buffer? then Some(Slot(|v.data|, bits)) else None
  }

  /** The contributions of all fields in schema order, skipped fields left out. */
  function Slots(fields: seq<Field>, values: map<string, Value>): seq<Slot>
    requires Encodable(fields, values)
  {
    if |fields| == 0 then []
    else
      var rest := Slots(fields[1..], values);
      match SlotOf(fields[0], values[fields[0].name])
      case None => rest
      case Some(s) => [s] + rest
  }

  /** The reference reading of the fixed region: the slots laid end to end,
      first slot in the lowest bits. */
  function Pack(slots: seq<Slot>): nat
  {
    if |slots| == 0 then 0 else slots[0].value + Shl(Pack(slots[1..]), slots[0].width)
  }

  /** The first slot sits in the lowest bits and the rest right above it. */
  lemma PackCons(slots: seq<Slot>)
    requires |slots| > 0
    ensures Pack(slots) == slots[0].value + Pow2(slots[0].width) * Pack(slots[1..])
  {
    ShlIsMul(Pack(slots[1..]), slots[0].width);
  }

  function SlotsWidth(slots: seq<Slot>): nat
  {
    if |slots| == 0 then 0 else slots[0].width + SlotsWidth(slots[1..])
  }

  /** Every value fits in its width, so no slot spills into the next. */
  predicate SlotsFit(slots: seq<Slot>)
  {
    forall i :: 0 <= i < |slots| ==> slots[i].value < Pow2(slots[i].width)
  }

  /** The encoder's registers: the accumulator `int`, the unflushed bit count
      `written_bytes`, and the fixed-region bytes emitted so far. */
  datatype Encoding = Encoding(acc: nat, pending: int, out: seq<byte>)

  /** The number the emitted bytes and the accumulator stand for together. */
  function Represented(e: Encoding): nat
  {
    LittleEndian(e.out) + Pow2(8 * |e.out|) * e.acc
  }

  /** The bit position the next field is written at, counted from the start of
      the fixed region. */
  function Offset(e: Encoding): int
  {
    e.pending + 8 * |e.out|
  }

  /** The accumulator holds no bits at or above the pending count. */
  predicate Fits(e: Encoding)
  {
    e.acc < Pow2(if e.pending < 0 then 0 else e.pending)
  }

  /** The last emitted byte is nonzero unless more nonzero bits are still to
      come. */
  predicate NoTrailingZero(e: Encoding)
  {
    |e.out| == 0 || e.out[|e.out| - 1] != 0 || e.acc > 0
  }

  lemma FlushStep(e: Encoding)
    ensures var e' := Encoding(e.acc / 256, e.pending - 8, e.out + [e.acc % 256]);
            && Represented(e') == Represented(e)
            && Offset(e') == Offset(e)
            && (e.acc > 0 ==> NoTrailingZero(e'))
            && (e.pending >= 1 && Fits(e) ==> Fits(e'))
  {
    var b: byte := e.acc % 256;
    var q := e.acc / 256;
    LittleEndianAppend(e.out, [b]);
    assert LittleEndian([b]) == b by {
      assert [b][1..] == [];
    }
    Pow2Plus8(8 * |e.out|);
    assert 8 * |e.out + [b]| == 8 * |e.out| + 8;
    Distribute(Pow2(8 * |e.out|), b, q);
    if e.pending >= 1 && Fits(e) {
      FlushStepFits(e.acc, e.pending);
    }
  }

  lemma Distribute(p: int, b: int, q: int)
    ensures p * b + (256 * p) * q == p * (b + 256 * q)
  {
  }

  lemma FlushStepFits(acc: nat, pending: int)
    requires pending >= 1 && acc < Pow2(pending)
    ensures acc / 256 < Pow2(if pending - 8 < 0 then 0 else pending - 8)
  {
    if pending >= 8 {
      Pow2Plus8(pending - 8);
      DivBoundBy(acc, 256, Pow2(pending - 8));
    } else {
      Pow2Monotone(pending, 8);
      assert Pow2(8) == 256;
    }
  }

  /** The flush loops (lines 135-139 with threshold 8, lines 142-146 with
      threshold 1): emit the low byte while at least `threshold` bits are
      pending and the accumulator is nonzero. */
  function Flush(e: Encoding, threshold: int): (r: Encoding)
    ensures Represented(r) == Represented(e)
    ensures Offset(r) == Offset(e)
    ensures |e.out| <= |r.out| && r.out[..|e.out|] == e.out
    ensures r.pending < threshold || r.acc == 0
    ensures NoTrailingZero(e) ==> NoTrailingZero(r)
    ensures threshold >= 1 && Fits(e) ==> Fits(r)
    ensures e.pending >= threshold - 8 ==> r.pending >= threshold - 8
    decreases e.acc
  {
    if e.pending >= threshold && e.acc > 0 then
      FlushStep(e);
      var r := Flush(Encoding(e.acc / 256, e.pending - 8, e.out + [e.acc % 256]), threshold);
      assert (e.out + [e.acc % 256])[..|e.out|] == e.out;
      r
    else
      e
  }

  /** `int |= value << written_bytes; written_bytes += width`. */
  function Put(e: Encoding, s: Slot): Encoding
    requires e.pending >= 0
  {
    Encoding(BitOr(e.acc, Shl(s.value, e.pending)), e.pending + s.width, e.out)
  }

  /** One iteration of the field loop (lines 115-139). */
  function EncodeField(f: Field, v: Value, e: Encoding): (r: Encoding)
    requires e.pending >= 0
    requires Normalizable(f, v)
    ensures r.pending >= 0
  {
    match SlotOf(f, v)
    case None => Flush(e, 8)
    case Some(s) => Flush(Put(e, s), 8)
  }

  /** The field loop (lines 114-140) over the remaining fields. */
  function EncodeFields(fields: seq<Field>, values: map<string, Value>, e: Encoding): (r: Encoding)
    requires e.pending >= 0
    requires Encodable(fields, values)
    ensures r.pending >= 0
  {
    if |fields| == 0 then e
    else EncodeFields(fields[1..], values, EncodeField(fields[0], values[fields[0].name], e))
  }

  lemma PutFits(acc: nat, v: nat, p: nat, w: nat)
    requires acc < Pow2(p) && v < Pow2(w)
    ensures acc + v * Pow2(p) < Pow2(p + w)
  {
    Pow2Add(p, w);
    LowPartBound(acc, v, Pow2(p), Pow2(w));
  }

  /** Writing one fitting slot adds its value at the current offset. */
  lemma PutSpec(e: Encoding, s: Slot)
    requires e.pending >= 0 && Fits(e) && s.value < Pow2(s.width)
    ensures Represented(Put(e, s)) == Represented(e) + Pow2(Offset(e)) * s.value
    ensures Offset(Put(e, s)) == Offset(e) + s.width
    ensures Fits(Put(e, s))
    ensures NoTrailingZero(e) ==> NoTrailingZero(Put(e, s))
  {
    var e' := Put(e, s);
    var p, q := Pow2(8 * |e.out|), Pow2(e.pending);
    ShlIsMul(s.value, e.pending);
    BitOrDisjoint(e.acc, s.value, e.pending);
    MulNat(s.value, q);
    PutFits(e.acc, s.value, e.pending, s.width);
    Pow2Add(8 * |e.out|, e.pending);
    assert Offset(e) == 8 * |e.out| + e.pending;
    PutArith(LittleEndian(e.out), p, q, e.acc, s.value, e'.acc, Pow2(Offset(e)),
             Represented(e), Represented(e'));
  }

  lemma PutArith(le: int, p: int, q: int, acc: int, v: int, acc': int, pq: int, rep: int, rep': int)
    requires acc' == acc + v * q && pq == p * q
    requires rep == le + p * acc && rep' == le + p * acc'
    ensures rep' == rep + pq * v
  {
    assert p * (acc + v * q) == p * acc + (p * q) * v;
  }

  /** Adding v at `off` and then `rest` right above it is adding their
      packing at `off`. */
  lemma PackStep(rep0: int, off0: nat, v: int, w: nat, rep1: int, off1: nat, rest: int, rep2: int, packed: int)
    requires rep1 == rep0 + Pow2(off0) * v && off1 == off0 + w
    requires rep2 == rep1 + Pow2(off1) * rest
    requires packed == v + Pow2(w) * rest
    ensures rep2 == rep0 + Pow2(off0) * packed
  {
    Pow2Add(off0, w);
    var a, b := Pow2(off0), Pow2(w);
    MulAssoc(a, b, rest);
    Distributes(a, v, b * rest);
  }

  lemma Distributes(a: int, b: int, c: int)
    ensures a * b + a * c == a * (b + c)
  {
  }

  /** The field loop adds the packed slots at the starting offset. */
  lemma {:induction false} EncodeFieldsSpec(fields: seq<Field>, values: map<string, Value>, e: Encoding)
    requires e.pending >= 0 && Fits(e)
    requires Encodable(fields, values)
    requires SlotsFit(Slots(fields, values))
    ensures var r := EncodeFields(fields, values, e);
            && Represented(r) == Represented(e) + Pow2(Offset(e)) * Pack(Slots(fields, values))
            && Offset(r) == Offset(e) + SlotsWidth(Slots(fields, values))
            && Fits(r)
            && (NoTrailingZero(e) ==> NoTrailingZero(r))
  {
    if |fields| > 0 {
      var f := fields[0];
      var v := values[f.name];
      SlotsStep(fields, values);
      var c := Contribution(SlotOf(f, v));
      var e1 := EncodeField(f, v, e);
      EncodeFieldSpec(f, v, e);
      EncodeFieldsSpec(fields[1..], values, e1);
      var r := EncodeFields(fields[1..], values, e1);
      assert EncodeFields(fields, values, e) == r;
      PackStep(Represented(e), Offset(e), c.value, c.width,
               Represented(e1), Offset(e1), Pack(Slots(fields[1..], values)), Represented(r),
               Pack(Slots(fields, values)));
    } else {
      var p := Pow2(Offset(e));
      assert Pack(Slots(fields, values)) == 0;
      assert p * 0 == 0;
    }
  }

  /** What one field adds to the fixed region: its slot, or nothing when it
      is skipped. */
  function Contribution(o: Option<Slot>): Slot
  {
    if o.Some? then o.value else Slot(0, 0)
  }

  /** One field of the loop adds its contribution at the current offset. */
  lemma EncodeFieldSpec(f: Field, v: Value, e: Encoding)
    requires e.pending >= 0 && Fits(e) && Normalizable(f, v)
    requires Contribution(SlotOf(f, v)).value < Pow2(Contribution(SlotOf(f, v)).width)
    ensures var r := EncodeField(f, v, e);
            var c := Contribution(SlotOf(f, v));
            && Represented(r) == Represented(e) + Pow2(Offset(e)) * c.value
            && Offset(r) == Offset(e) + c.width
            && Fits(r)
            && (NoTrailingZero(e) ==> NoTrailingZero(r))
  {
    if SlotOf(f, v).Some? {
      PutSpec(e, SlotOf(f, v).value);
    }
  }

  /** The slots of a field list: the first field's contribution, then the
      rest's slots. */
  lemma SlotsStep(fields: seq<Field>, values: map<string, Value>)
    requires |fields| > 0 && Encodable(fields, values)
    ensures Encodable(fields[1..], values)
    ensures var c := Contribution(SlotOf(fields[0], values[fields[0].name]));
            var slots, rest := Slots(fields, values), Slots(fields[1..], values);
            && Pack(slots) == c.value + Pow2(c.width) * Pack(rest)
            && SlotsWidth(slots) == c.width + SlotsWidth(rest)
            && (SlotsFit(slots) ==> SlotsFit(rest) && c.value < Pow2(c.width))
  {
    EncodableTail(fields, values);
    var slots, rest := Slots(fields, values), Slots(fields[1..], values);
    match SlotOf(fields[0], values[fields[0].name])
    case None =>
      assert slots == rest;
      assert Pow2(0) == 1;
      var p := Pack(rest);
      assert 1 * p == p;
    case Some(s) =>
      assert slots == [s] + rest;
      assert slots[0] == s && slots[1..] == rest;
      PackCons(slots);
      assert Pack(slots) == s.value + Pow2(s.width) * Pack(rest);
      if SlotsFit(slots) {
        SlotsFitTail(slots);
      }
  }

  lemma EncodableTail(fields: seq<Field>, values: map<string, Value>)
    requires |fields| > 0 && Encodable(fields, values)
    ensures Encodable(fields[1..], values)
  {
    var rest := fields[1..];
    forall i | 0 <= i < |rest|
      ensures rest[i].name in values && Normalizable(rest[i], values[rest[i].name])
    {
      assert rest[i] == fields[i + 1];
    }
  }

  lemma SlotsFitTail(slots: seq<Slot>)
    requires |slots| > 0 && SlotsFit(slots)
    ensures slots[0].value < Pow2(slots[0].width)
    ensures SlotsFit(slots[1..])
  {
    forall i | 0 <= i < |slots[1..]|
      ensures slots[1..][i].value < Pow2(slots[1..][i].width)
    {
      assert slots[1..][i] == slots[i + 1];
    }
  }

  /** The fixed region: the field loop, then the final flush (lines 142-146).
      When every value fits its width, it is the shortest little-endian form
      of the packed slots: zero high bytes are never emitted, and a fixed
      region whose slots are all zero is empty. */
  function FixedRegion(fields: seq<Field>, values: map<string, Value>): (fixed: seq<byte>)
    requires Encodable(fields, values)
    ensures SlotsFit(Slots(fields, values)) ==> fixed == Minimal(Pack(Slots(fields, values)))
  {
    FixedRegionMinimal(fields, values);
    Flush(EncodeFields(fields, values, Encoding(0, 0, [])), 1).out
  }

  lemma FixedRegionMinimal(fields: seq<Field>, values: map<string, Value>)
    requires Encodable(fields, values)
    ensures SlotsFit(Slots(fields, values)) ==>
              Flush(EncodeFields(fields, values, Encoding(0, 0, [])), 1).out
              == Minimal(Pack(Slots(fields, values)))
  {
    if SlotsFit(Slots(fields, values)) {
      var init := Encoding(0, 0, []);
      assert Represented(init) == 0 && Offset(init) == 0;
      assert Pow2(Offset(init)) == 1;
      EncodeFieldsSpec(fields, values, init);
      var e := EncodeFields(fields, values, init);
      var packed := Pack(Slots(fields, values));
      assert Represented(e) == 0 + 1 * packed;
      FinalFlushMinimal(e);
    }
  }

  /** The final flush empties a fitting accumulator and leaves the minimal
      form of what the encoding represents. */
  lemma FinalFlushMinimal(e: Encoding)
    requires e.pending >= 0 && Fits(e) && NoTrailingZero(e)
    ensures Flush(e, 1).out == Minimal(Represented(e))
  {
    FlushedMinimal(Flush(e, 1), Represented(e));
  }

  /** Registers with nothing left to flush hold the minimal form of what they
      represent. */
  lemma FlushedMinimal(r: Encoding, n: nat)
    requires Fits(r) && NoTrailingZero(r) && (r.pending < 1 || r.acc == 0)
    requires Represented(r) == n
    ensures r.out == Minimal(n)
  {
    assert r.pending < 1 ==> Pow2(if r.pending < 0 then 0 else r.pending) == 1;
    assert r.acc == 0;
    var p := Pow2(8 * |r.out|);
    assert p * r.acc == 0;
    MinimalUnique(r.out);
  }

  /** `int |= value << written_bytes` computes on the source's i32 register
      what Put computes on a natural number exactly when the shift amount is
      below 32 and neither the shifted value nor the result reaches bit 31, the
      sign bit. */
  predicate PutInRegister(e: Encoding, s: Slot)
    requires e.pending >= 0
  {
    e.pending < 32 && Shl(s.value, e.pending) < Pow2(31) && Put(e, s).acc < Pow2(31)
  }

  /** Every slot the field loop writes from `e` on stays inside the i32
      register. */
  predicate StaysInRegister(fields: seq<Field>, values: map<string, Value>, e: Encoding)
    requires e.pending >= 0 && Encodable(fields, values)
  {
    || |fields| == 0
    || (&& (match SlotOf(fields[0], values[fields[0].name])
            case None => true
            case Some(s) => PutInRegister(e, s))
        && StaysInRegister(fields[1..], values, EncodeField(fields[0], values[fields[0].name], e)))
  }

  /** The OR-in step on the i32 register itself, kept as its 32-bit pattern:
      the shifted value keeps only its low 32 bits, and a shift amount of 32
      or more is None (a debug build panics there). */
  function PutI32(e: Encoding, s: Slot): Option<Encoding>
    requires e.pending >= 0
  {
    if e.pending >= 32 then None
    else Some(Encoding(BitOr(e.acc, Shl(s.value, e.pending) % Pow2(32)), e.pending + s.width, e.out))
  }

  /** The flush loops on the i32 register: `int > 0` fails as soon as the
      sign bit is set, as well as at zero. */
  function FlushI32(e: Encoding, threshold: int): (r: Encoding)
    ensures e.pending >= threshold - 8 ==> r.pending >= threshold - 8
    decreases e.acc
  {
    if e.pending >= threshold && 0 < e.acc < Pow2(31) then
      FlushI32(Encoding(e.acc / 256, e.pending - 8, e.out + [e.acc % 256]), threshold)
    else
      e
  }

  /** One iteration of the field loop on the i32 register. */
  function EncodeFieldI32(f: Field, v: Value, e: Encoding): (r: Option<Encoding>)
    requires e.pending >= 0
    requires Normalizable(f, v)
    ensures r.Some? ==> r.value.pending >= 0
  {
    match SlotOf(f, v)
    case None => Some(FlushI32(e, 8))
    case Some(s) =>
      match PutI32(e, s)
      case None => None
      case Some(p) => Some(FlushI32(p, 8))
  }

  /** The field loop on the i32 register; None where a debug build panics. */
  function EncodeFieldsI32(fields: seq<Field>, values: map<string, Value>, e: Encoding): Option<Encoding>
    requires e.pending >= 0
    requires Encodable(fields, values)
  {
    if |fields| == 0 then Some(e)
    else
      match EncodeFieldI32(fields[0], values[fields[0].name], e)
      case None => None
      case Some(e') => EncodeFieldsI32(fields[1..], values, e')
  }

  /** The fixed region as the source computes it in its i32 register. */
  function FixedRegionI32(fields: seq<Field>, values: map<string, Value>): Option<seq<byte>>
    requires Encodable(fields, values)
  {
    match EncodeFieldsI32(fields, values, Encoding(0, 0, []))
    case None => None
    case Some(e) => Some(FlushI32(e, 1).out)
  }

  /** Below the sign bit both flush loops emit the same bytes. */
  lemma {:induction false} FlushI32Agrees(e: Encoding, threshold: int)
    requires e.acc < Pow2(31)
    ensures FlushI32(e, threshold) == Flush(e, threshold)
    ensures Flush(e, threshold).acc < Pow2(31)
    decreases e.acc
  {
    if e.pending >= threshold && e.acc > 0 {
      FlushI32Agrees(Encoding(e.acc / 256, e.pending - 8, e.out + [e.acc % 256]), threshold);
    }
  }

  /** A step inside the register is the same on both registers. */
  lemma PutI32Agrees(e: Encoding, s: Slot)
    requires e.pending >= 0 && PutInRegister(e, s)
    ensures PutI32(e, s) == Some(Put(e, s))
  {
    var shifted, m := Shl(s.value, e.pending), Pow2(32);
    assert m == 2 * Pow2(31);
    DivModUnique(shifted, m, 0, shifted);
  }

  /** One field inside the register: both registers agree after it. */
  lemma EncodeFieldI32Agrees(f: Field, v: Value, e: Encoding)
    requires e.pending >= 0 && e.acc < Pow2(31) && Normalizable(f, v)
    requires SlotOf(f, v).Some? ==> PutInRegister(e, SlotOf(f, v).value)
    ensures EncodeFieldI32(f, v, e) == Some(EncodeField(f, v, e))
    ensures EncodeField(f, v, e).acc < Pow2(31)
  {
    match SlotOf(f, v)
    case None =>
      FlushI32Agrees(e, 8);
    case Some(s) =>
      PutI32Agrees(e, s);
      FlushI32Agrees(Put(e, s), 8);
  }

  /** A field loop that stays inside the register computes on the i32
      register what it computes on a natural number. */
  lemma {:induction false} EncodeFieldsI32Agrees(fields: seq<Field>, values: map<string, Value>, e: Encoding)
    requires e.pending >= 0 && e.acc < Pow2(31) && Encodable(fields, values)
    requires StaysInRegister(fields, values, e)
    ensures EncodeFieldsI32(fields, values, e) == Some(EncodeFields(fields, values, e))
    ensures EncodeFields(fields, values, e).acc < Pow2(31)
  {
    if |fields| > 0 {
      var f, v := fields[0], values[fields[0].name];
      EncodeFieldI32Agrees(f, v, e);
      EncodableTail(fields, values);
      var e' := EncodeField(f, v, e);
      EncodeFieldsI32Agrees(fields[1..], values, e');
      assert EncodeFields(fields, values, e) == EncodeFields(fields[1..], values, e');
    }
  }

  /** Where no slot reaches the sign bit, the fixed region of this model is
      exactly the one the source computes in its i32 register. */
  lemma FixedRegionInRegister(fields: seq<Field>, values: map<string, Value>)
    requires Encodable(fields, values)
    requires StaysInRegister(fields, values, Encoding(0, 0, []))
    ensures FixedRegionI32(fields, values) == Some(FixedRegion(fields, values))
  {
    var init := Encoding(0, 0, []);
    EncodeFieldsI32Agrees(fields, values, init);
    FlushI32Agrees(EncodeFields(fields, values, init), 1);
  }

  /** The payloads of the Bytes fields whose value is a buffer, in schema order
      (line 128). */
  function Payloads(fields: seq<Field>, values: map<string, Value>): (ps: seq<seq<byte>>)
    requires Encodable(fields, values)
  {
    if |fields| == 0 then []
    else
      var v := values[fields[0].name];
      if fields[0].Bytes? && v.Buffer? then [v.data] + Payloads(fields[1..], values)
      else Payloads(fields[1..], values)
  }

  /** The payloads concatenated last one first. */
  function ConcatReversed(ps: seq<seq<byte>>): seq<byte>
  {
    if |ps| == 0 then [] else ConcatReversed(ps[1..]) + ps[0]
  }

  /** `Vec::insert`. */
  function Insert(s: seq<byte>, k: nat, x: byte): seq<byte>
    requires k <= |s|
  {
    s[..k] + [x] + s[k..]
  }

  /** The inner copy loop (lines 155-157) from index j on: byte j of the
      buffer goes to position `at + j`. Together the inserts splice the rest
      of the buffer in at `at + j`. */
  function InsertFrom(arr: seq<byte>, at: nat, buffer: seq<byte>, j: nat): (r: seq<byte>)
    requires j <= |buffer| && at + j <= |arr|
    ensures r == arr[..at + j] + buffer[j..] + arr[at + j..]
    decreases |buffer| - j
  {
    if j == |buffer| then
      assert buffer[j..] == [];
      assert arr == arr[..at + j] + arr[at + j..];
      arr
    else
      var arr' := Insert(arr, at + j, buffer[j]);
      var r := InsertFrom(arr', at, buffer, j + 1);
      assert arr'[..at + j + 1] == arr[..at + j] + [buffer[j]];
      assert arr'[at + j + 1..] == arr[at + j..];
      assert buffer[j..] == [buffer[j]] + buffer[j + 1..];
      r
  }

  /** The outer copy loop (lines 153-158) over the payloads from `ps[0]` on:
      each one is inserted at the same position, in front of the ones before
      it, so they end up in reverse order. */
  function Splice(arr: seq<byte>, at: nat, ps: seq<seq<byte>>): (r: seq<byte>)
    requires at <= |arr|
    ensures r == arr[..at] + ConcatReversed(ps) + arr[at..]
    decreases |ps|
  {
    if |ps| == 0 then
      assert arr == arr[..at] + arr[at..];
      arr
    else
      var arr' := InsertFrom(arr, at, ps[0], 0);
      assert arr'[..at] == arr[..at];
      assert arr'[at..] == ps[0] + arr[at..];
      Splice(arr', at, ps[1..])
  }

  /** `Schema::to_buffer`: the fixed region followed by every payload, the
      payloads in reverse schema order. */
  function ToBuffer(schema: Schema, values: map<string, Value>): (r: seq<byte>)
    requires Encodable(schema.fields, values)
    ensures r == FixedRegion(schema.fields, values) + ConcatReversed(Payloads(schema.fields, values))
  {
    var fixed := FixedRegion(schema.fields, values);
    var r := Splice(fixed, |fixed|, Payloads(schema.fields, values));
    assert fixed[..|fixed|] == fixed && fixed[|fixed|..] == [];
    r
  }

  /** The payloads concatenated first one first. */
  function Concat(ps: seq<seq<byte>>): seq<byte>
  {
    if |ps| == 0 then [] else ps[0] + Concat(ps[1..])
  }

  function Reverse<T>(s: seq<T>): (r: seq<T>)
    ensures |r| == |s|
    ensures forall i :: 0 <= i < |s| ==> r[i] == s[|s| - 1 - i]
  {
    seq(|s|, i requires 0 <= i < |s| => s[|s| - 1 - i])
  }

  /** The total number of payload bytes. */
  function PayloadLength(ps: seq<seq<byte>>): nat
  {
    if |ps| == 0 then 0 else |ps[0]| + PayloadLength(ps[1..])
  }

  lemma {:induction false} ConcatSnoc(ps: seq<seq<byte>>, x: seq<byte>)
    ensures Concat(ps + [x]) == Concat(ps) + x
  {
    if |ps| == 0 {
      assert ps + [x] == [x];
      assert [x][1..] == [];
    } else {
      assert (ps + [x])[1..] == ps[1..] + [x];
      ConcatSnoc(ps[1..], x);
    }
  }

  /** The payload region is the payloads in reverse order, each one whole. */
  lemma {:induction false} ConcatReversedIsReverse(ps: seq<seq<byte>>)
    ensures ConcatReversed(ps) == Concat(Reverse(ps))
    ensures |ConcatReversed(ps)| == PayloadLength(ps)
  {
    if |ps| > 0 {
      ConcatReversedIsReverse(ps[1..]);
      assert Reverse(ps) == Reverse(ps[1..]) + [ps[0]];
      ConcatSnoc(Reverse(ps[1..]), ps[0]);
    }
  }

  /** The encoder's output layout: the fixed region, then the payloads last
      one first; its length is the fixed region's plus every payload's. The
      first payload written ends the output, and with a single payload the
      output is the fixed region followed by that payload. */
  lemma OutputLayout(schema: Schema, values: map<string, Value>)
    requires Encodable(schema.fields, values)
    ensures var ps := Payloads(schema.fields, values);
            && ToBuffer(schema, values) == FixedRegion(schema.fields, values) + Concat(Reverse(ps))
            && |ToBuffer(schema, values)| == |FixedRegion(schema.fields, values)| + PayloadLength(ps)
            && (|ps| > 0 ==> ToBuffer(schema, values)[|ToBuffer(schema, values)| - |ps[0]|..] == ps[0])
            && (|ps| == 1 ==> ToBuffer(schema, values) == FixedRegion(schema.fields, values) + ps[0])
  {
    var ps := Payloads(schema.fields, values);
    ConcatReversedIsReverse(ps);
    if |ps| > 0 {
      var head := FixedRegion(schema.fields, values) + ConcatReversed(ps[1..]);
      assert ToBuffer(schema, values) == head + ps[0];
      assert (head + ps[0])[|head + ps[0]| - |ps[0]|..] == ps[0];
    }
    if |ps| == 1 {
      assert ps[1..] == [];
    }
  }
}

=== FILE: fields.dfy ===
/** The codec's data model: field declarations, resolved fields and the values
    that are encoded and decoded (src/main.rs:3-46). */
module Fields {
  import opened Binary

  /** A field as the caller declares it: `bits` and `always_present` are not
      set yet. */
  datatype FieldDecl =
    | IntDecl(name: string, min: int, max: int)
    | BooleanDecl(name: string)
    | BytesDecl(name: string, max: int)

  /** A field after schema construction. An `Int` carries the width of its
      normalized value `v - min`, a `Bytes` field the width of its length
      prefix; a `Boolean` always occupies one bit (see Width). */
  datatype Field =
    | Int(name: string, min: int, max: int, bits: nat, alwaysPresent: bool)
    | Boolean(name: string)
    | Bytes(name: string, max: int, bits: nat)

  /** A runtime value, keyed by field name in a map. */
  datatype Value =
    | Buffer(data: seq<byte>)
    | IntValue(n: int)
    | BooleanValue(b: bool)

  /** The number of bits a field occupies in the fixed region. */
  function Width(f: Field): nat
  {
    match f
    case Int(_, _, _, bits, _) => bits
    case Boolean(_) => 1
    case Bytes(_, _, bits) => bits
  }

  function TotalWidth(fields: seq<Field>): nat
  {
    if |fields| == 0 then 0 else Width(fields[0]) + TotalWidth(fields[1..])
  }

  lemma {:induction false} TotalWidthAppend(a: seq<Field>, b: seq<Field>)
    ensures TotalWidth(a + b) == TotalWidth(a) + TotalWidth(b)
  {
    if |a| == 0 {
      assert a + b == b;
    } else {
      assert (a + b)[1..] == a[1..] + b;
      TotalWidthAppend(a[1..], b);
    }
  }

  /** What schema construction guarantees of each field: the width is the
      least one that holds every admissible value, and a single-valued Int is
      flagged as always present. */
  predicate Resolved(f: Field)
  {
    match f
    case Int(_, min, max, bits, alwaysPresent) =>
      min <= max && bits == CeilLog2(max - min + 1) && alwaysPresent == (bits == 0)
    case Boolean(_) => true
    case Bytes(_, max, bits) => max >= 0 && bits == CeilLog2(max + 1)
  }

  /** Every field is at most 24 bits wide. The decoder pulls in a whole byte
      while fewer valid bits than the field's width are held, so such a byte
      starts at bit 23 at the latest and ends below bit 31, the sign bit of its
      i32 register. */
  predicate FitsRegister(fields: seq<Field>)
  {
    forall i :: 0 <= i < |fields| ==> Width(fields[i]) <= 24
  }

  lemma FitsRegisterTail(fields: seq<Field>)
    requires |fields| > 0 && FitsRegister(fields)
    ensures Width(fields[0]) <= 24 && FitsRegister(fields[1..])
  {
    forall i | 0 <= i < |fields| - 1
      ensures Width(fields[1..][i]) <= 24
    {
      assert fields[1..][i] == fields[i + 1];
    }
  }

  /** The value has the variant the field's kind expects. */
  predicate Matches(f: Field, v: Value)
  {
    match f
    case Int(_, _, _, _, _) => v.IntValue?
    case Boolean(_) => v.BooleanValue?
    case Bytes(_, _, _) => v.Buffer?
  }

  /** A matching value inside the declared bounds: an Int in [min, max], a
      payload of at most `max` bytes. */
  predicate InDeclaredRange(f: Field, v: Value)
  {
    match f
    case Int(_, min, max, _, _) => v.IntValue? && min <= v.n <= max
    case Boolean(_) => v.BooleanValue?
    case Bytes(_, max, _) => v.Buffer? && |v.data| <= max
  }
}

=== FILE: roundtrip.dfy ===
/** Decoding what the encoder wrote (src/main.rs:107-215, used that way by the
    driver at lines 246-249), and where that breaks. */
module RoundTrip {
  import opened Binary
  import opened Fields
  import opened Schemas
  import opened Encoder
  import opened Decoder

  /** The number of fixed-region bytes the decoder consumes for `w` bits:
      it always reads the first byte, then tops up lazily. */
  function FixedLength(w: nat): (k: nat)
    ensures k >= 1 && w <= 8 * k
    ensures k == 1 || 8 * (k - 1) < w
  {
    if w == 0 then 1 else (w + 7) / 8
  }

  predicate AllResolved(fields: seq<Field>)
  {
    forall i :: 0 <= i < |fields| ==> Resolved(fields[i])
  }

  /** The map holds, for every field, a value of the field's variant inside
      its declared bounds. */
  predicate ValuesInRange(fields: seq<Field>, values: map<string, Value>)
  {
    forall i :: 0 <= i < |fields| ==>
      fields[i].name in values && InDeclaredRange(fields[i], values[fields[i].name])
  }

  function NameSet(fields: seq<Field>): set<string>
  {
    set i | 0 <= i < |fields| :: fields[i].name
  }

  lemma InRangeIsEncodable(fields: seq<Field>, values: map<string, Value>)
    requires ValuesInRange(fields, values)
    ensures Encodable(fields, values)
  {
  }

  lemma InRangeTail(fields: seq<Field>, values: map<string, Value>)
    requires |fields| > 0 && AllResolved(fields) && ValuesInRange(fields, values)
    ensures AllResolved(fields[1..]) && ValuesInRange(fields[1..], values)
  {
    InRangeTailResolved(fields);
    InRangeTailSimple(fields, values);
  }

  /** A resolved field's in-range value fits its width, and an always-present
      Int can only hold its min. */
  lemma InRangeSlot(f: Field, v: Value)
    requires Resolved(f) && InDeclaredRange(f, v)
    ensures SlotOf(f, v).Some?
    ensures SlotOf(f, v).value.value < Pow2(Width(f))
    ensures f.Int? && f.alwaysPresent ==> v.n == f.min
  {
    if f.Int? {
      CeilLog2ZeroIffOne(f.max - f.min + 1);
    }
  }

  lemma {:induction false} PackBound(slots: seq<Slot>)
    requires SlotsFit(slots)
    ensures Pack(slots) < Pow2(SlotsWidth(slots))
  {
    if |slots| > 0 {
      var s, rest := slots[0], slots[1..];
      SlotsFitTail(slots);
      PackBound(rest);
      PackCons(slots);
      PackBoundStep(s.value, s.width, Pack(rest), SlotsWidth(rest), Pack(slots));
    }
  }

  lemma PackBoundStep(v: nat, w: nat, rest: nat, restWidth: nat, packed: nat)
    requires v < Pow2(w) && rest < Pow2(restWidth)
    requires packed == v + Pow2(w) * rest
    ensures packed < Pow2(w + restWidth)
  {
    Pow2Add(w, restWidth);
    LowPartBound(v, rest, Pow2(w), Pow2(restWidth));
  }

  /** In range, every field yields a slot of its own width. */
  lemma {:induction false} InRangeSlots(fields: seq<Field>, values: map<string, Value>)
    requires AllResolved(fields) && ValuesInRange(fields, values)
    ensures Encodable(fields, values)
    ensures SlotsFit(Slots(fields, values))
    ensures SlotsWidth(Slots(fields, values)) == TotalWidth(fields)
  {
    InRangeIsEncodable(fields, values);
    if |fields| > 0 {
      InRangeTail(fields, values);
      InRangeSlots(fields[1..], values);
      var f := fields[0];
      InRangeSlot(f, values[f.name]);
      var s := SlotOf(f, values[f.name]).value;
      var slots := Slots(fields, values);
      assert slots == [s] + Slots(fields[1..], values);
      assert slots[1..] == Slots(fields[1..], values);
      forall i | 0 <= i < |slots|
        ensures slots[i].value < Pow2(slots[i].width)
      {
        if i > 0 {
          assert slots[i] == Slots(fields[1..], values)[i - 1];
        }
      }
    }
  }

  /** In range, the fixed region is the shortest little-endian form of the
      packed slots: it holds every field's bits, has no zero high byte, is
      never longer than the decoder consumes, and is empty exactly when every
      slot is zero. */
  lemma {:induction false} FixedRegionIsPacked(fields: seq<Field>, values: map<string, Value>)
    requires AllResolved(fields) && ValuesInRange(fields, values)
    requires StaysInRegister(fields, values, Encoding(0, 0, []))
    ensures Encodable(fields, values)
    ensures FixedRegionI32(fields, values) == Some(FixedRegion(fields, values))
    ensures var fixed := FixedRegion(fields, values);
            var packed := Pack(Slots(fields, values));
            && fixed == Minimal(packed)
            && LittleEndian(fixed) == packed < Pow2(TotalWidth(fields))
            && (|fixed| == 0 || fixed[|fixed| - 1] != 0)
            && |fixed| <= FixedLength(TotalWidth(fields))
            && (fixed == [] <==> packed == 0)
  {
    InRangeSlots(fields, values);
    PackBound(Slots(fields, values));
    PaddedFixedRegion(fields, values);
    assert Minimal(0) == [];
    FixedRegionInRegister(fields, values);
  }

  /** Every Bytes field's payload is the tail of the buffer. */
  ghost predicate PayloadsAtEnd(fields: seq<Field>, values: map<string, Value>, buffer: seq<byte>)
    requires ValuesInRange(fields, values)
  {
    forall i :: 0 <= i < |fields| && fields[i].Bytes? ==>
      var data := values[fields[i].name].data;
      |data| <= |buffer| && buffer[|buffer| - |data|..] == data
  }

  /** The decoder succeeded, and its map holds exactly the schema's field
      names, each bound to its value in `values`. */
  ghost predicate Recovers(r: Result<map<string, Value>>, fields: seq<Field>, values: map<string, Value>)
  {
    && r.Success?
    && r.value.Keys == NameSet(fields)
    && forall n :: n in NameSet(fields) ==> n in values && r.value[n] == values[n]
  }

  lemma SplitPacked(v: nat, w: nat, rest: nat, restWidth: nat, y: nat)
    requires v < Pow2(w)
    ensures (v + Pow2(w) * rest) + Pow2(w + restWidth) * y == v + Pow2(w) * (rest + Pow2(restWidth) * y)
    ensures (v + Pow2(w) * (rest + Pow2(restWidth) * y)) % Pow2(w) == v
    ensures (v + Pow2(w) * (rest + Pow2(restWidth) * y)) / Pow2(w) == rest + Pow2(restWidth) * y
  {
    Pow2Add(w, restWidth);
    var a, b := Pow2(w), Pow2(restWidth);
    MulAssoc(a, b, y);
    Distributes(a, rest, b * y);
    ShiftSplitBy(v, rest + b * y, a);
    DivModUnique(v, a, 0, v);
  }

  /** Reading `w` bits where a value below 2^w was packed gives that value
      back, and leaves the rest of the packing at the next offset. */
  lemma ReadSlot(buffer: seq<byte>, offset: nat, sv: nat, w: nat, rest: nat, restWidth: nat, y: nat)
    requires sv < Pow2(w)
    requires LittleEndian(buffer) / Pow2(offset) == sv + Pow2(w) * (rest + Pow2(restWidth) * y)
    ensures ReadBits(buffer, offset, w) == sv
    ensures LittleEndian(buffer) / Pow2(offset + w) == rest + Pow2(restWidth) * y
  {
    SplitPacked(sv, w, rest, restWidth, y);
    DivDiv(LittleEndian(buffer), offset, w);
    ReadBitsValue(buffer, offset, w);
  }

  /** One field of the reference decoder, where the field's slot is the next
      `Width` bits of the input, reads back the field's value. */
  lemma FieldStep(buffer: seq<byte>, f: Field, v: Value, p: Position)
    requires Resolved(f) && InDeclaredRange(f, v)
    requires f.Bytes? ==> |v.data| <= |buffer| && buffer[|buffer| - |v.data|..] == v.data
    requires ReadBits(buffer, p.offset, Width(f)) == SlotOf(f, v).value.value
    requires p.offset + Width(f) <= 8 * |buffer|
    ensures ReferenceField(buffer, f, p) == Success(Position(p.offset + Width(f), p.values[f.name := v]))
  {
    InRangeSlot(f, v);
  }

  lemma NameSetCons(fields: seq<Field>)
    requires |fields| > 0
    ensures NameSet(fields) == {fields[0].name} + NameSet(fields[1..])
  {
    forall n | n in NameSet(fields)
      ensures n in {fields[0].name} + NameSet(fields[1..])
    {
      var i :| 0 <= i < |fields| && fields[i].name == n;
      if i > 0 {
        assert fields[1..][i - 1].name == n;
      }
    }
    forall n | n in NameSet(fields[1..])
      ensures n in NameSet(fields)
    {
      var i :| 0 <= i < |fields[1..]| && fields[1..][i].name == n;
      assert fields[i + 1].name == n;
    }
  }

  lemma PayloadsAtEndTail(fields: seq<Field>, values: map<string, Value>, buffer: seq<byte>)
    requires |fields| > 0 && ValuesInRange(fields, values) && ValuesInRange(fields[1..], values)
    requires PayloadsAtEnd(fields, values, buffer)
    ensures PayloadsAtEnd(fields[1..], values, buffer)
    ensures fields[0].Bytes? ==> var data := values[fields[0].name].data;
              |data| <= |buffer| && buffer[|buffer| - |data|..] == data
  {
    forall i | 0 <= i < |fields[1..]| && fields[1..][i].Bytes?
      ensures |values[fields[1..][i].name].data| <= |buffer|
      ensures buffer[|buffer| - |values[fields[1..][i].name].data|..] == values[fields[1..][i].name].data
    {
      assert fields[1..][i] == fields[i + 1];
    }
  }

  /** The reference decoder, started at a bit offset where the packed slots of
      the remaining fields begin, reads back every remaining field's value. */
  lemma {:induction false} DecodePacked(buffer: seq<byte>, fields: seq<Field>, values: map<string, Value>, p: Position, y: nat)
    requires AllResolved(fields) && ValuesInRange(fields, values)
    requires PayloadsAtEnd(fields, values, buffer)
    requires Encodable(fields, values)
    requires LittleEndian(buffer) / Pow2(p.offset)
             == Pack(Slots(fields, values)) + Pow2(TotalWidth(fields)) * y
    requires p.offset + TotalWidth(fields) <= 8 * |buffer|
    ensures var r := ReferenceDecode(buffer, fields, p);
            && r.Success?
            && (forall n :: n in r.value <==> n in p.values || n in NameSet(fields))
            && (forall n :: n in NameSet(fields) ==> r.value[n] == values[n])
            && (forall n :: n in p.values && n !in NameSet(fields) ==> r.value[n] == p.values[n])
  {
    if |fields| > 0 {
      var f := fields[0];
      var rest := fields[1..];
      var v := values[f.name];
      InRangeTail(fields, values);
      PayloadsAtEndTail(fields, values, buffer);
      PackedHead(buffer, fields, values, p.offset, y);
      FieldStep(buffer, f, v, p);
      var next := Position(p.offset + Width(f), p.values[f.name := v]);
      DecodePacked(buffer, rest, values, next, y);
      NameSetCons(fields);
    }
  }

  /** The first field's slot is the next `Width` bits, and the remaining
      fields' packing follows it. */
  lemma PackedHead(buffer: seq<byte>, fields: seq<Field>, values: map<string, Value>, offset: nat, y: nat)
    requires |fields| > 0 && AllResolved(fields) && ValuesInRange(fields, values)
    requires Encodable(fields, values)
    requires LittleEndian(buffer) / Pow2(offset)
             == Pack(Slots(fields, values)) + Pow2(TotalWidth(fields)) * y
    ensures Encodable(fields[1..], values)
    ensures ReadBits(buffer, offset, Width(fields[0]))
            == SlotOf(fields[0], values[fields[0].name]).value.value
    ensures LittleEndian(buffer) / Pow2(offset + Width(fields[0]))
            == Pack(Slots(fields[1..], values)) + Pow2(TotalWidth(fields[1..])) * y
  {
    var f, rest := fields[0], fields[1..];
    InRangeTail(fields, values);
    InRangeSlots(fields, values);
    InRangeSlots(rest, values);
    InRangeSlot(f, values[f.name]);
    var s := SlotOf(f, values[f.name]).value;
    assert Slots(fields, values) == [s] + Slots(rest, values);
    var packedRest := Pack(Slots(rest, values));
    PackCons(Slots(fields, values));
    assert Pack(Slots(fields, values)) == s.value + Pow2(s.width) * packedRest;
    SplitPacked(s.value, s.width, packedRest, TotalWidth(rest), y);
    ReadSlot(buffer, offset, s.value, s.width, packedRest, TotalWidth(rest), y);
  }

  /** The only Bytes field's payload is the whole payload region. */
  lemma {:induction false} OnlyPayload(fields: seq<Field>, values: map<string, Value>, i: nat)
    requires ValuesInRange(fields, values) && Encodable(fields, values)
    requires |BytesFields(fields)| <= 1
    requires i < |fields| && fields[i].Bytes?
    ensures ConcatReversed(Payloads(fields, values)) == values[fields[i].name].data
  {
    InRangeTailSimple(fields, values);
    if i == 0 {
      NoBytes(fields[1..], values);
      assert ConcatReversed([values[fields[0].name].data]) == values[fields[0].name].data by {
        assert [values[fields[0].name].data][1..] == [];
      }
    } else {
      assert !fields[0].Bytes? by {
        if fields[0].Bytes? {
          assert fields[1..][i - 1].Bytes?;
          BytesFieldsNonEmpty(fields[1..], i - 1);
        }
      }
      OnlyPayload(fields[1..], values, i - 1);
    }
  }

  lemma InRangeTailSimple(fields: seq<Field>, values: map<string, Value>)
    requires |fields| > 0 && ValuesInRange(fields, values)
    ensures ValuesInRange(fields[1..], values) && Encodable(fields[1..], values)
  {
    forall i | 0 <= i < |fields| - 1
      ensures fields[1..][i].name in values && InDeclaredRange(fields[1..][i], values[fields[1..][i].name])
    {
      assert fields[1..][i] == fields[i + 1];
    }
  }

  lemma {:induction false} BytesFieldsNonEmpty(fields: seq<Field>, i: nat)
    requires i < |fields| && fields[i].Bytes?
    ensures |BytesFields(fields)| >= 1
  {
    if i > 0 && !fields[0].Bytes? {
      BytesFieldsNonEmpty(fields[1..], i - 1);
    }
  }

  lemma {:induction false} NoBytes(fields: seq<Field>, values: map<string, Value>)
    requires Encodable(fields, values)
    requires |BytesFields(fields)| == 0
    ensures Payloads(fields, values) == []
  {
    if |fields| > 0 {
      assert Encodable(fields[1..], values) by {
        forall i | 0 <= i < |fields| - 1
          ensures fields[1..][i].name in values && Normalizable(fields[1..][i], values[fields[1..][i].name])
        {
          assert fields[1..][i] == fields[i + 1];
        }
      }
      NoBytes(fields[1..], values);
    }
  }

  /** What the reference decoder needs to read every field back from offset
      0: each payload at the end of the buffer, and the packed slots in the
      low bits, followed by some `y`. */
  ghost predicate PackedBuffer(fields: seq<Field>, values: map<string, Value>, buffer: seq<byte>, y: nat)
    requires ValuesInRange(fields, values) && Encodable(fields, values)
  {
    && |buffer| > 0
    && PayloadsAtEnd(fields, values, buffer)
    && TotalWidth(fields) <= 8 * |buffer|
    && LittleEndian(buffer) / Pow2(0) == Pack(Slots(fields, values)) + Pow2(TotalWidth(fields)) * y
  }

  /** The buffer laid out as fixed region then payload region meets
      DecodePacked's conditions at offset 0. */
  lemma PackedLayout(fields: seq<Field>, values: map<string, Value>, fixed: seq<byte>)
    requires AllResolved(fields)
    requires |BytesFields(fields)| <= 1
    requires ValuesInRange(fields, values)
    requires Encodable(fields, values)
    requires |fixed| == FixedLength(TotalWidth(fields))
    requires LittleEndian(fixed) == Pack(Slots(fields, values))
    ensures var tail := ConcatReversed(Payloads(fields, values));
            PackedBuffer(fields, values, fixed + tail, TailAbove(fixed, TotalWidth(fields), tail))
  {
    OnlyPayloadAnywhere(fields, values, fixed);
    FixedThenTail(fixed, ConcatReversed(Payloads(fields, values)), TotalWidth(fields));
  }

  /** Decoding a fixed region of exactly the length the decoder consumes,
      holding the packed slots, followed by the payload region, gives back
      every field's value. */
  lemma {:induction false} DecodesPacked(schema: Schema, values: map<string, Value>, fixed: seq<byte>)
    requires AllResolved(schema.fields)
    requires |BytesFields(schema.fields)| <= 1
    requires ValuesInRange(schema.fields, values)
    requires Encodable(schema.fields, values)
    requires |fixed| == FixedLength(TotalWidth(schema.fields))
    requires LittleEndian(fixed) == Pack(Slots(schema.fields, values))
    ensures Recovers(FromBuffer(schema, fixed + ConcatReversed(Payloads(schema.fields, values))), schema.fields, values)
  {
    var fields := schema.fields;
    var tail := ConcatReversed(Payloads(fields, values));
    var y := TailAbove(fixed, TotalWidth(fields), tail);
    assert PackedBuffer(fields, values, fixed + tail, y) by {
      PackedLayout(fields, values, fixed);
    }
    DecodeFromStart(schema, fixed + tail, values, y);
  }

  lemma DecodeFromStart(schema: Schema, buffer: seq<byte>, values: map<string, Value>, y: nat)
    requires AllResolved(schema.fields) && ValuesInRange(schema.fields, values)
    requires Encodable(schema.fields, values)
    requires PackedBuffer(schema.fields, values, buffer, y)
    ensures Recovers(FromBuffer(schema, buffer), schema.fields, values)
  {
    DecodePacked(buffer, schema.fields, values, Position(0, map[]), y);
  }

  /** What lies above bit w of `fixed + tail`, when the first w bits are in
      `fixed`: the tail's value shifted past the rest of `fixed`. */
  function TailAbove(fixed: seq<byte>, w: nat, tail: seq<byte>): nat
    requires w <= 8 * |fixed|
  {
    MulNat(Pow2(8 * |fixed| - w), LittleEndian(tail));
    Pow2(8 * |fixed| - w) * LittleEndian(tail)
  }

  /** The fixed region's value, followed by the tail as a multiple of 2^w. */
  lemma FixedThenTail(fixed: seq<byte>, tail: seq<byte>, w: nat)
    requires w <= 8 * |fixed|
    ensures LittleEndian(fixed + tail) / Pow2(0)
            == LittleEndian(fixed) + Pow2(w) * TailAbove(fixed, w, tail)
  {
    LittleEndianAppend(fixed, tail);
    var a, b, t := Pow2(w), Pow2(8 * |fixed| - w), LittleEndian(tail);
    Pow2Add(w, 8 * |fixed| - w);
    assert w + (8 * |fixed| - w) == 8 * |fixed|;
    assert Pow2(8 * |fixed|) == a * b;
    MulAssoc(a, b, t);
    assert Pow2(0) == 1;
  }

  /** PayloadsAtEnd depends only on the payload region at the end, not on the
      fixed region in front of it. */
  lemma OnlyPayloadAnywhere(fields: seq<Field>, values: map<string, Value>, fixed: seq<byte>)
    requires ValuesInRange(fields, values) && Encodable(fields, values)
    requires |BytesFields(fields)| <= 1
    ensures PayloadsAtEnd(fields, values, fixed + ConcatReversed(Payloads(fields, values)))
  {
    var tail := ConcatReversed(Payloads(fields, values));
    var buffer := fixed + tail;
    forall i | 0 <= i < |fields| && fields[i].Bytes?
      ensures |values[fields[i].name].data| <= |buffer|
      ensures buffer[|buffer| - |values[fields[i].name].data|..] == values[fields[i].name].data
    {
      OnlyPayload(fields, values, i);
      assert buffer[|buffer| - |tail|..] == tail;
    }
  }

  /** `from_buffer(to_buffer(values))` returns every field's value, provided
      the schema is resolved, has at most one Bytes field, every value is in
      range, and the fixed region came out at full length (its top byte is
      nonzero). Field names need not be distinct. */
  lemma RoundTrip(schema: Schema, values: map<string, Value>)
    requires AllResolved(schema.fields) && FitsRegister(schema.fields)
    requires |BytesFields(schema.fields)| <= 1
    requires ValuesInRange(schema.fields, values)
    requires StaysInRegister(schema.fields, values, Encoding(0, 0, []))
    requires |FixedRegion(schema.fields, values)| == FixedLength(TotalWidth(schema.fields))
    ensures FixedRegionI32(schema.fields, values) == Some(FixedRegion(schema.fields, values))
    ensures FromBuffer(schema, ToBuffer(schema, values)).Success?
    ensures Recovers(FromBuffer(schema, ToBuffer(schema, values)), schema.fields, values)
    ensures var buffer := ToBuffer(schema, values);
            |buffer| > 0 && FieldsInRegister(buffer, schema.fields, Decoding(buffer[0], 8, 1, map[]))
  {
    InRangeSlots(schema.fields, values);
    DecodesPacked(schema, values, FixedRegion(schema.fields, values));
    FixedRegionInRegister(schema.fields, values);
    FromBufferInRegister(schema, ToBuffer(schema, values));
  }

  /** The fixed region padded with zero bytes up to the length the decoder
      consumes. The padding never changes the value. */
  function PaddedRegion(fields: seq<Field>, values: map<string, Value>): (padded: seq<byte>)
    requires Encodable(fields, values)
    ensures var fixed := FixedRegion(fields, values);
            && |padded| >= FixedLength(TotalWidth(fields))
            && |padded| >= |fixed|
            && padded[..|fixed|] == fixed
            && (forall i :: |fixed| <= i < |padded| ==> padded[i] == 0)
            && (|fixed| >= FixedLength(TotalWidth(fields)) ==> padded == fixed)
            && LittleEndian(padded) == LittleEndian(fixed)
  {
    var fixed := FixedRegion(fields, values);
    var k := FixedLength(TotalWidth(fields));
    var n := if |fixed| < k then k - |fixed| else 0;
    ZerosAddNothing(fixed, n);
    assert (fixed + Zeros(n))[..|fixed|] == fixed;
    fixed + Zeros(n)
  }

  /** The encoder as intended: the padded fixed region, then the payloads as
      before, so that a zero high byte is kept. */
  function ToBufferPadded(schema: Schema, values: map<string, Value>): (r: seq<byte>)
    requires Encodable(schema.fields, values)
    ensures var fixed := FixedRegion(schema.fields, values);
            && |r| >= FixedLength(TotalWidth(schema.fields))
            && |r| >= |fixed|
            && r[..|fixed|] == fixed
            && (|fixed| >= FixedLength(TotalWidth(schema.fields)) ==> r == ToBuffer(schema, values))
  {
    var padded := PaddedRegion(schema.fields, values);
    var r := padded + ConcatReversed(Payloads(schema.fields, values));
    assert r[..|padded|] == padded;
    r
  }

  /** In range, the fixed region never exceeds the length the decoder
      consumes, so the padded region has exactly that length and holds the
      packed slots. */
  lemma PaddedFixedRegion(fields: seq<Field>, values: map<string, Value>)
    requires AllResolved(fields) && ValuesInRange(fields, values)
    ensures Encodable(fields, values)
    ensures |FixedRegion(fields, values)| <= FixedLength(TotalWidth(fields))
    ensures |PaddedRegion(fields, values)| == FixedLength(TotalWidth(fields))
    ensures LittleEndian(PaddedRegion(fields, values)) == Pack(Slots(fields, values))
  {
    InRangeSlots(fields, values);
    var slots := Slots(fields, values);
    var k := FixedLength(TotalWidth(fields));
    PackBound(slots);
    Pow2Monotone(TotalWidth(fields), 8 * k);
    MinimalLength(Pack(slots), k);
  }

  /** The padded encoder round-trips every in-range map with at most one
      Bytes field, with no condition on the packed value. */
  lemma {:induction false} RoundTripPadded(schema: Schema, values: map<string, Value>)
    requires AllResolved(schema.fields) && ValuesInRange(schema.fields, values)
    requires |BytesFields(schema.fields)| <= 1
    ensures Encodable(schema.fields, values)
    ensures FromBuffer(schema, ToBufferPadded(schema, values)).Success?
    ensures Recovers(FromBuffer(schema, ToBufferPadded(schema, values)), schema.fields, values)
  {
    PaddedFixedRegion(schema.fields, values);
    DecodesPacked(schema, values, PaddedRegion(schema.fields, values));
  }

  /** The number of Bytes declarations. */
  function BytesDeclCount(decls: seq<FieldDecl>): nat
  {
    if |decls| == 0 then 0
    else (if decls[0].BytesDecl? then 1 else 0) + BytesDeclCount(decls[1..])
  }

  lemma {:induction false} BytesDeclsResolve(decls: seq<FieldDecl>)
    requires forall i :: 0 <= i < |decls| ==> ValidDecl(decls[i])
    ensures |BytesFields(ResolveAll(decls))| == BytesDeclCount(decls)
  {
    if |decls| > 0 {
      var resolved := ResolveAll(decls);
      assert resolved[1..] == ResolveAll(decls[1..]);
      BytesDeclsResolve(decls[1..]);
    }
  }

  /** A field the reference decoder reads advances the offset by its width. */
  lemma FieldAdvances(buffer: seq<byte>, f: Field, p: Position)
    requires Resolved(f) && p.offset <= 8 * |buffer|
    ensures ReferenceField(buffer, f, p).Success? ==>
              ReferenceField(buffer, f, p).value.offset == p.offset + Width(f)
              && p.offset + Width(f) <= 8 * |buffer|
  {
  }

  lemma InRangeTailResolved(fields: seq<Field>)
    requires |fields| > 0 && AllResolved(fields)
    ensures AllResolved(fields[1..])
  {
    forall i | 0 <= i < |fields| - 1
      ensures Resolved(fields[1..][i])
    {
      assert fields[1..][i] == fields[i + 1];
    }
  }

  /** Decoding succeeds only if the input holds every field's bits. */
  lemma {:induction false} DecodeNeedsAllBits(buffer: seq<byte>, fields: seq<Field>, p: Position)
    requires AllResolved(fields) && p.offset <= 8 * |buffer|
    ensures ReferenceDecode(buffer, fields, p).Success? ==> p.offset + TotalWidth(fields) <= 8 * |buffer|
  {
    if |fields| > 0 {
      FieldAdvances(buffer, fields[0], p);
      var step := ReferenceField(buffer, fields[0], p);
      if step.Success? {
        InRangeTailResolved(fields);
        DecodeNeedsAllBits(buffer, fields[1..], step.value);
      }
    }
  }

  /** Without Bytes fields the payload region is empty, and the encoder's
      output round-trips exactly when the fixed region came out at full
      length: a dropped zero high byte always makes decoding fail. */
  lemma {:induction false} FixedOnlyRoundTripIff(schema: Schema, values: map<string, Value>)
    requires AllResolved(schema.fields) && FitsRegister(schema.fields)
    requires |BytesFields(schema.fields)| == 0
    requires ValuesInRange(schema.fields, values)
    requires StaysInRegister(schema.fields, values, Encoding(0, 0, []))
    ensures Encodable(schema.fields, values)
    ensures FromBuffer(schema, ToBuffer(schema, values)).Success?
            <==> |FixedRegion(schema.fields, values)| == FixedLength(TotalWidth(schema.fields))
  {
    var fields := schema.fields;
    PaddedFixedRegion(fields, values);
    var fixed := FixedRegion(fields, values);
    var k := FixedLength(TotalWidth(fields));
    if |fixed| == k {
      RoundTrip(schema, values);
    } else {
      NoBytes(fields, values);
      assert ConcatReversed([]) == [];
      assert ToBuffer(schema, values) == fixed;
      if |fixed| > 0 {
        DecodeNeedsAllBits(fixed, fields, Position(0, map[]));
      }
    }
  }

  /** The schema of a single Int field in [0, 2]: two bits wide. */
  lemma SmallIntSchema()
    ensures Construct([IntDecl("n", 0, 2)]) == Schema([Int("n", 0, 2, 2, false)], 0)
  {
    var f := Int("n", 0, 2, 2, false);
    assert CeilLog2(3) == 2 by {
      assert CeilLog2(2) == 1 by {
        assert CeilLog2(1) == 0;
      }
    }
    assert ResolveAll([IntDecl("n", 0, 2)]) == [f];
    assert [f][1..] == [];
    assert BytesFields([f]) == BytesFields([]) == [];
    assert FixedFields([f]) == [f] + FixedFields([]) == [f];
  }

  /** The value 0 is in range for that field. */
  lemma SmallIntInRange(f: Field, values: map<string, Value>)
    requires f == Int("n", 0, 2, 2, false) && values == map["n" := IntValue(0)]
    ensures AllResolved([f]) && ValuesInRange([f], values) && |BytesFields([f])| == 0
    ensures Encodable([f], values)
  {
    assert Resolved(f) by {
      assert CeilLog2(3) == 2 by {
        assert CeilLog2(2) == 1 by {
          assert CeilLog2(1) == 0;
        }
      }
    }
    assert [f][0] == f && "n" in values;
    assert [f][1..] == [];
    assert BytesFields([f]) == BytesFields([]) == [];
  }

  /** The value 0 in that schema is one two-bit slot holding 0, with no
      payload ... */
  lemma SmallIntSlots(f: Field, values: map<string, Value>)
    requires f == Int("n", 0, 2, 2, false) && values == map["n" := IntValue(0)]
    ensures Encodable([f], values)
    ensures Slots([f], values) == [Slot(0, 2)]
    ensures SlotsFit(Slots([f], values)) && Pack(Slots([f], values)) == 0
    ensures Payloads([f], values) == []
  {
    assert f.name in values && values[f.name] == IntValue(0);
    SingleFieldSlots(f, values);
    var s := SlotOf(f, values[f.name]).value;
    assert s == Slot(0, 2);
    PackSingle(s);
  }

  lemma PackSingle(s: Slot)
    ensures Pack([s]) == s.value
    ensures SlotsFit([s]) <==> s.value < Pow2(s.width)
  {
    assert [s][1..] == [];
    PackCons([s]);
  }

  /** A schema of one fixed-width field with a matching value: one slot and
      no payload. */
  lemma SingleFieldSlots(f: Field, values: map<string, Value>)
    requires !f.Bytes? && f.name in values && Normalizable(f, values[f.name])
    requires Matches(f, values[f.name])
    ensures Encodable([f], values)
    ensures Slots([f], values) == [SlotOf(f, values[f.name]).value]
    ensures Payloads([f], values) == []
  {
    assert [f][0] == f;
    assert [f][1..] == [];
    assert Slots([f], values) == [SlotOf(f, values[f.name]).value] + Slots([], values);
    assert Payloads([f], values) == Payloads([], values);
  }

  /** ... so its fixed region is empty. */
  lemma SmallIntZero(f: Field, values: map<string, Value>)
    requires f == Int("n", 0, 2, 2, false) && values == map["n" := IntValue(0)]
    ensures Encodable([f], values)
    ensures FixedRegion([f], values) == []
    ensures Payloads([f], values) == []
  {
    SmallIntSlots(f, values);
    AllZeroSlotsEmpty([f], values);
  }

  /** Slots that are all zero leave the fixed region empty. */
  lemma AllZeroSlotsEmpty(fields: seq<Field>, values: map<string, Value>)
    requires Encodable(fields, values)
    requires SlotsFit(Slots(fields, values)) && Pack(Slots(fields, values)) == 0
    ensures FixedRegion(fields, values) == []
  {
    assert Minimal(0) == [];
  }

  /** The encoder as written loses a zero high byte: an Int in [0, 2] (the
      field `construct` resolves, by SmallIntSchema) holding 0 encodes to
      nothing, and decoding nothing fails (the source indexes byte 0 of an
      empty buffer). */
  lemma ZeroValueIsLost(schema: Schema, values: map<string, Value>)
    requires schema.fields == [Int("n", 0, 2, 2, false)] && values == map["n" := IntValue(0)]
    ensures Encodable(schema.fields, values)
    ensures ToBuffer(schema, values) == []
    ensures FromBuffer(schema, ToBuffer(schema, values)) == Failure(EmptyBuffer)
  {
    SmallIntZero(schema.fields[0], values);
    assert schema.fields == [schema.fields[0]];
    assert ConcatReversed([]) == [];
  }

  /** The padded encoder writes the same value as one zero byte ... */
  lemma ZeroValuePadded(schema: Schema, values: map<string, Value>)
    requires schema == Construct([IntDecl("n", 0, 2)]) && values == map["n" := IntValue(0)]
    ensures Encodable(schema.fields, values)
    ensures ToBufferPadded(schema, values) == [0]
  {
    SmallIntSchema();
    var f := schema.fields[0];
    SmallIntZero(f, values);
    assert schema.fields == [f];
    assert FixedLength(2) == 1;
    assert Zeros(1) == [0];
    assert PaddedRegion([f], values) == [] + Zeros(1) == [0];
    assert ConcatReversed([]) == [];
  }

  /** ... which decodes back to 0. */
  lemma ZeroValueKeptWhenPadded(schema: Schema, values: map<string, Value>)
    requires schema == Construct([IntDecl("n", 0, 2)]) && values == map["n" := IntValue(0)]
    ensures Encodable(schema.fields, values)
    ensures FromBuffer(schema, ToBufferPadded(schema, values)) == Success(values)
  {
    SmallIntSchema();
    var f := schema.fields[0];
    SmallIntZero(f, values);
    assert schema.fields == [f];
    SmallIntInRange(f, values);
    RoundTripPadded(schema, values);
    assert NameSet([f]) == {"n"} by {
      assert [f][0].name == "n";
    }
    var r := FromBuffer(schema, ToBufferPadded(schema, values));
    assert r.value == values;
  }

  /** A single always-present Int in [5, 5]: zero bits wide. */
  lemma ConstantSchema()
    ensures Construct([IntDecl("c", 5, 5)]) == Schema([Int("c", 5, 5, 0, true)], 0)
  {
    var f := Int("c", 5, 5, 0, true);
    assert CeilLog2(1) == 0;
    assert ResolveAll([IntDecl("c", 5, 5)]) == [f];
    assert [f][1..] == [];
    assert BytesFields([f]) == BytesFields([]) == [];
    assert FixedFields([f]) == [f] + FixedFields([]) == [f];
  }

  /** An always-present field is still looked up (`Encodable` asks for its
      entry, as the source unwraps it), yet its value packs to no bytes at
      all, and decoding no bytes fails. */
  lemma ConstantIsLost(schema: Schema, values: map<string, Value>)
    requires schema == Construct([IntDecl("c", 5, 5)]) && values == map["c" := IntValue(5)]
    ensures Encodable(schema.fields, values)
    ensures ToBuffer(schema, values) == []
    ensures FromBuffer(schema, ToBuffer(schema, values)) == Failure(EmptyBuffer)
  {
    ConstantSchema();
    var f := schema.fields[0];
    assert schema.fields == [f];
    assert f.name in values && values[f.name] == IntValue(5);
    SingleFieldSlots(f, values);
    var s := SlotOf(f, values[f.name]).value;
    assert s == Slot(0, 0);
    PackSingle(s);
    AllZeroSlotsEmpty([f], values);
    assert ConcatReversed([]) == [];
  }

  /** An Int field in [0, 2^24 - 1] and one in [0, 16383]. */
  function OverflowDecls(): seq<FieldDecl>
  {
    [IntDecl("z", 0, 16777215), IntDecl("d", 0, 16383)]
  }

  function OverflowFields(): seq<Field>
  {
    [Int("z", 0, 16777215, 24, false), Int("d", 0, 16383, 14, false)]
  }

  /** The first field at zero, the second at 8192 = 2^13. */
  function OverflowValues(): map<string, Value>
  {
    map["z" := IntValue(0), "d" := IntValue(8192)]
  }

  lemma Pow2Of24()
    ensures Pow2(24) == 16777216
  {
    Pow2Add(12, 12);
    assert Pow2(12) == 4096;
  }

  lemma WidthOf24Bits()
    ensures CeilLog2(16777216) == 24
  {
    Pow2Of24();
    CeilLog2OfPow2(24);
  }

  lemma WidthOf14Bits()
    ensures CeilLog2(16384) == 14
  {
    assert Pow2(14) == 16384;
    CeilLog2OfPow2(14);
  }

  lemma ResolveOverflowFirst()
    ensures ResolveField(IntDecl("z", 0, 16777215)) == Int("z", 0, 16777215, 24, false)
  {
    WidthOf24Bits();
  }

  lemma ResolveOverflowSecond()
    ensures ResolveField(IntDecl("d", 0, 16383)) == Int("d", 0, 16383, 14, false)
  {
    WidthOf14Bits();
  }

  lemma OverflowResolved(decls: seq<FieldDecl>)
    requires decls == OverflowDecls()
    ensures forall i :: 0 <= i < |decls| ==> ValidDecl(decls[i])
    ensures ResolveAll(decls) == OverflowFields()
  {
    ResolveOverflowFirst();
    ResolveOverflowSecond();
    assert decls[1..][1..] == [];
  }

  lemma OverflowShape(fields: seq<Field>)
    requires fields == OverflowFields()
    ensures TotalWidth(fields) == 38 && FitsRegister(fields) && |BytesFields(fields)| == 0
    ensures Reorder(fields) == fields
  {
    assert fields[1..][1..] == [];
  }

  lemma OverflowFieldsResolved(fields: seq<Field>)
    requires fields == OverflowFields()
    ensures AllResolved(fields)
  {
    WidthOf24Bits();
    WidthOf14Bits();
  }

  /** `construct` resolves the declarations to widths 24 and 14, in order. */
  lemma OverflowSchema()
    ensures Construct(OverflowDecls()) == Schema(OverflowFields(), 4)
  {
    OverflowResolved(OverflowDecls());
    OverflowShape(OverflowFields());
  }

  lemma OverflowInRange(fields: seq<Field>, values: map<string, Value>)
    requires fields == OverflowFields() && values == OverflowValues()
    ensures |fields| == 2 && Encodable(fields, values) && ValuesInRange(fields, values)
  {
  }

  lemma OverflowFirstSlot(fields: seq<Field>, values: map<string, Value>)
    requires fields == OverflowFields() && values == OverflowValues()
    ensures |fields| == 2 && fields[0].name in values && Normalizable(fields[0], values[fields[0].name])
    ensures SlotOf(fields[0], values[fields[0].name]) == Some(Slot(0, 24))
  {
  }

  lemma OverflowSecondSlot(fields: seq<Field>, values: map<string, Value>)
    requires fields == OverflowFields() && values == OverflowValues()
    ensures |fields| == 2 && fields[1].name in values && Normalizable(fields[1], values[fields[1].name])
    ensures SlotOf(fields[1], values[fields[1].name]) == Some(Slot(8192, 14))
  {
  }

  /** A zero slot adds nothing to an empty accumulator, on either register. */
  lemma ZeroSlotStaysPending(f: Field, v: Value, e: Encoding)
    requires e.pending >= 0 && e.acc == 0 && Normalizable(f, v)
    requires SlotOf(f, v) == Some(Slot(0, Width(f)))
    ensures EncodeField(f, v, e) == Encoding(0, e.pending + Width(f), e.out)
    ensures e.pending < 32 ==> EncodeFieldI32(f, v, e) == Some(Encoding(0, e.pending + Width(f), e.out))
  {
    ShlIsMul(0, e.pending);
    if e.pending < 32 {
      assert 0 % Pow2(32) == 0;
    }
  }

  /** 8192 << 24 is 2^37: past the sign bit, and 0 in 32 bits. */
  lemma ShiftPastRegister()
    ensures Shl(8192, 24) >= Pow2(31)
    ensures Shl(8192, 24) % Pow2(32) == 0
  {
    ShlIsMul(8192, 24);
    assert Pow2(13) == 8192;
    Pow2Add(13, 24);
    Pow2Monotone(31, 37);
    MultipleOfPow2(32, 5);
  }

  lemma MultipleOfPow2(a: nat, b: nat)
    ensures Pow2(a + b) % Pow2(a) == 0
  {
    Pow2Add(a, b);
    DivModUnique(Pow2(a + b), Pow2(a), Pow2(b), 0);
  }

  /** The slots are 0 (24 bits) and 8192 (14 bits): they pack to 2^37, past
      the low four bytes. */
  lemma OverflowPack(fields: seq<Field>, values: map<string, Value>)
    requires |fields| == 2 && Encodable(fields, values)
    requires SlotOf(fields[0], values[fields[0].name]) == Some(Slot(0, 24))
    requires SlotOf(fields[1], values[fields[1].name]) == Some(Slot(8192, 14))
    ensures Pack(Slots(fields, values)) >= Pow2(32)
  {
    var t1 := fields[1..];
    assert t1[0] == fields[1] && t1[1..] == [];
    SlotsStep(fields, values);
    SlotsStep(t1, values);
    var rest := Pack(Slots(t1, values));
    assert rest == 8192 by {
      var p := Pow2(14);
      assert Pack(Slots(t1[1..], values)) == 0;
      assert p * 0 == 0;
    }
    TwoToThe37();
  }

  lemma TwoToThe37()
    ensures Pow2(24) * 8192 >= Pow2(32)
  {
    assert Pow2(13) == 8192;
    Pow2Add(24, 13);
    Pow2Monotone(32, 37);
  }

  /** The natural-number register leaves the i32 range at the second field. */
  lemma OverflowLeaves(fields: seq<Field>, values: map<string, Value>)
    requires |fields| == 2 && Encodable(fields, values)
    requires SlotOf(fields[0], values[fields[0].name]) == Some(Slot(0, 24))
    requires SlotOf(fields[1], values[fields[1].name]) == Some(Slot(8192, 14))
    ensures !StaysInRegister(fields, values, Encoding(0, 0, []))
  {
    ShiftPastRegister();
    var t1 := fields[1..];
    assert t1[0] == fields[1];
    EncodableTail(fields, values);
    ZeroSlotStaysPending(fields[0], values[fields[0].name], Encoding(0, 0, []));
    assert !PutInRegister(Encoding(0, 24, []), Slot(8192, 14));
  }

  /** On the source's register the shift drops every set bit: the register
      ends at zero with 38 bits pending, and no byte is emitted. */
  lemma OverflowI32(fields: seq<Field>, values: map<string, Value>)
    requires |fields| == 2 && Encodable(fields, values)
    requires SlotOf(fields[0], values[fields[0].name]) == Some(Slot(0, 24))
    requires SlotOf(fields[1], values[fields[1].name]) == Some(Slot(8192, 14))
    ensures FixedRegionI32(fields, values) == Some([])
  {
    ShiftPastRegister();
    var t1 := fields[1..];
    assert t1[0] == fields[1] && t1[1..] == [];
    EncodableTail(fields, values);
    ZeroSlotStaysPending(fields[0], values[fields[0].name], Encoding(0, 0, []));
    var last := Encoding(0, 38, []);
    assert BitOr(0, 0) == 0;
    assert EncodeFieldI32(fields[1], values[fields[1].name], Encoding(0, 24, [])) == Some(last);
    assert EncodeFieldsI32(t1, values, Encoding(0, 24, [])) == Some(last);
  }

  /** In the natural-number model the region has full length and decodes. */
  lemma OverflowModelRoundTrips(schema: Schema, values: map<string, Value>)
    requires AllResolved(schema.fields) && |BytesFields(schema.fields)| == 0
    requires ValuesInRange(schema.fields, values)
    requires Encodable(schema.fields, values) && Pack(Slots(schema.fields, values)) >= Pow2(32)
    requires TotalWidth(schema.fields) == 38
    ensures |FixedRegion(schema.fields, values)| == FixedLength(TotalWidth(schema.fields))
    ensures Recovers(FromBuffer(schema, ToBuffer(schema, values)), schema.fields, values)
  {
    PaddedFixedRegion(schema.fields, values);
    InRangeSlots(schema.fields, values);
    var m := FixedRegion(schema.fields, values);
    LittleEndianBound(m);
    if |m| < 5 {
      Pow2Monotone(8 * |m|, 32);
      assert false;
    }
    DecodesPacked(schema, values, m);
  }

  /** On the source's register: the fixed region comes out empty. */
  lemma OverflowOnRegister(schema: Schema, values: map<string, Value>)
    requires schema.fields == OverflowFields() && values == OverflowValues()
    ensures Encodable(schema.fields, values)
    ensures !StaysInRegister(schema.fields, values, Encoding(0, 0, []))
    ensures FixedRegionI32(schema.fields, values) == Some([])
  {
    OverflowInRange(schema.fields, values);
    OverflowFirstSlot(schema.fields, values);
    OverflowSecondSlot(schema.fields, values);
    OverflowLeaves(schema.fields, values);
    OverflowI32(schema.fields, values);
  }

  /** On natural numbers: every round-trip premise holds and the map comes
      back. */
  lemma OverflowOnNaturals(schema: Schema, values: map<string, Value>)
    requires schema.fields == OverflowFields() && values == OverflowValues()
    ensures AllResolved(schema.fields) && FitsRegister(schema.fields)
    ensures |BytesFields(schema.fields)| == 0 && ValuesInRange(schema.fields, values)
    ensures |FixedRegion(schema.fields, values)| == FixedLength(TotalWidth(schema.fields))
    ensures Recovers(FromBuffer(schema, ToBuffer(schema, values)), schema.fields, values)
  {
    OverflowInRange(schema.fields, values);
    OverflowShape(schema.fields);
    OverflowFieldsResolved(schema.fields);
    OverflowFirstSlot(schema.fields, values);
    OverflowSecondSlot(schema.fields, values);
    OverflowPack(schema.fields, values);
    OverflowModelRoundTrips(schema, values);
  }

  /** The deferred flush of zero bytes meets the i32 register. The model's
      round-trip premises all hold, and the natural-number encoder writes
      five bytes that decode back. But on the source's register the second
      shift drops every bit, no byte is ever emitted, and the buffer handed
      to `from_buffer` is empty. */
  lemma ZeroBytesOverflowRegister(schema: Schema, values: map<string, Value>)
    requires schema == Construct(OverflowDecls()) && values == OverflowValues()
    ensures AllResolved(schema.fields) && FitsRegister(schema.fields)
    ensures |BytesFields(schema.fields)| == 0 && ValuesInRange(schema.fields, values)
    ensures |FixedRegion(schema.fields, values)| == FixedLength(TotalWidth(schema.fields))
    ensures Recovers(FromBuffer(schema, ToBuffer(schema, values)), schema.fields, values)
    ensures !StaysInRegister(schema.fields, values, Encoding(0, 0, []))
    ensures FixedRegionI32(schema.fields, values) == Some([])
    ensures Payloads(schema.fields, values) == []
    ensures FromBuffer(schema, []) == Failure(EmptyBuffer)
  {
    OverflowSchema();
    OverflowOnNaturals(schema, values);
    OverflowOnRegister(schema, values);
    NoBytes(schema.fields, values);
  }
}

=== FILE: schema.dfy ===
/** Schema construction (`Schema::construct`, src/main.rs:49-105): resolve each
    declared field's width, move the Bytes fields behind the fixed-width ones
    with a stable sort, and compute the byte-length hint. */
module Schemas {
  import opened Binary
  import opened Fields

  /** A resolved schema. The source's unused `int` and `bytes` members are not
      modelled. */
  datatype Schema = Schema(fields: seq<Field>, maxByteLength: int)

  /** The bounds `construct` needs to compute a width: an Int range that holds
      at least one value and a non-negative payload bound. */
  predicate ValidDecl(d: FieldDecl)
  {
    match d
    case IntDecl(_, min, max) => min <= max
    case BooleanDecl(_) => true
    case BytesDecl(_, max) => max >= 0
  }

  /** One iteration of the resolution loop (lines 53-84). */
  function ResolveField(d: FieldDecl): (f: Field)
    requires ValidDecl(d)
    ensures f.name == d.name
    ensures d.IntDecl? <==> f.Int?
    ensures d.BooleanDecl? <==> f.Boolean?
    ensures d.BytesDecl? <==> f.Bytes?
    ensures f.Int? ==> && f.min == d.min && f.max == d.max
                       && Pow2(f.bits) >= d.max - d.min + 1
                       && (f.bits == 0 || Pow2(f.bits - 1) < d.max - d.min + 1)
                       && (f.alwaysPresent <==> d.min == d.max)
    ensures f.Boolean? ==> Width(f) == 1
    ensures f.Bytes? ==> && f.max == d.max
                         && Pow2(f.bits) >= d.max + 1
                         && (f.bits == 0 || Pow2(f.bits - 1) < d.max + 1)
    ensures Resolved(f)
  {
    match d
    case IntDecl(name, min, max) =>
      var bits := CeilLog2(max - min + 1);
      CeilLog2ZeroIffOne(max - min + 1);
      Int(name, min, max, bits, bits == 0)
    case BooleanDecl(name) =>
      Boolean(name)
    case BytesDecl(name, max) =>
      Bytes(name, max, CeilLog2(max + 1))
  }

  /** The resolved fields in declaration order, before sorting. */
  function ResolveAll(decls: seq<FieldDecl>): (fields: seq<Field>)
    requires forall i :: 0 <= i < |decls| ==> ValidDecl(decls[i])
    ensures |fields| == |decls|
    ensures forall i :: 0 <= i < |decls| ==> fields[i] == ResolveField(decls[i])
  {
    if |decls| == 0 then [] else [ResolveField(decls[0])] + ResolveAll(decls[1..])
  }

  datatype Ordering = Less | Equal | Greater

  /** The closure handed to `sort_by` (lines 87-95). It answers Greater for
      any pair of Bytes fields in either order. */
  function Compare(a: Field, b: Field): Ordering
  {
    if a.Bytes? then Greater
    else if b.Bytes? then Less
    else Equal
  }

  /** The relation a stable sort sees: Rust's `sort_by` asks only whether the
      comparator answers Less. */
  predicate Precedes(a: Field, b: Field)
  {
    Compare(a, b) == Less
  }

  /** The relation the sort sees is a strict weak order (irreflexive,
      transitive, with transitive incomparability), so the stable sort has
      one well-defined result even though Compare itself is not antisymmetric
      on Bytes pairs. */
  lemma PrecedesIsStrictWeakOrder(a: Field, b: Field, c: Field)
    ensures !Precedes(a, a)
    ensures Precedes(a, b) && Precedes(b, c) ==> Precedes(a, c)
    ensures (!Precedes(a, b) && !Precedes(b, a) && !Precedes(b, c) && !Precedes(c, b))
            ==> (!Precedes(a, c) && !Precedes(c, a))
    ensures Precedes(a, b) <==> !a.Bytes? && b.Bytes?
  {
  }

  /** The fixed-width (Int and Boolean) fields of s, in order. */
  function FixedFields(s: seq<Field>): (r: seq<Field>)
    ensures forall i :: 0 <= i < |r| ==> !r[i].Bytes?
  {
    if |s| == 0 then []
    else if s[0].Bytes? then FixedFields(s[1..])
    else [s[0]] + FixedFields(s[1..])
  }

  /** The Bytes fields of s, in order. */
  function BytesFields(s: seq<Field>): (r: seq<Field>)
    ensures forall i :: 0 <= i < |r| ==> r[i].Bytes?
  {
    if |s| == 0 then []
    else if s[0].Bytes? then [s[0]] + BytesFields(s[1..])
    else BytesFields(s[1..])
  }

  /** The outcome of the stable sort: every fixed-width field, then every
      Bytes field, each group in its original order. */
  function Reorder(s: seq<Field>): seq<Field>
  {
    FixedFields(s) + BytesFields(s)
  }

  /** No later element is strictly before an earlier one. */
  ghost predicate SortedByKind(r: seq<Field>)
  {
    forall i, j :: 0 <= i < j < |r| ==> !Precedes(r[j], r[i])
  }

  /** r is what a stable sort of s by Precedes returns: a permutation, sorted,
      and each class of equivalent elements (fixed-width / Bytes) keeps its
      relative order. */
  ghost predicate StableSortOf(r: seq<Field>, s: seq<Field>)
  {
    && multiset(r) == multiset(s)
    && SortedByKind(r)
    && FixedFields(r) == FixedFields(s)
    && BytesFields(r) == BytesFields(s)
  }

  lemma {:induction false} FiltersAppend(a: seq<Field>, b: seq<Field>)
    ensures FixedFields(a + b) == FixedFields(a) + FixedFields(b)
    ensures BytesFields(a + b) == BytesFields(a) + BytesFields(b)
  {
    if |a| == 0 {
      assert a + b == b;
    } else {
      assert (a + b)[0] == a[0];
      assert (a + b)[1..] == a[1..] + b;
      FiltersAppend(a[1..], b);
    }
  }

  lemma {:induction false} FiltersIdempotent(s: seq<Field>)
    ensures FixedFields(FixedFields(s)) == FixedFields(s)
    ensures BytesFields(FixedFields(s)) == []
    ensures FixedFields(BytesFields(s)) == []
    ensures BytesFields(BytesFields(s)) == BytesFields(s)
  {
    if |s| > 0 {
      FiltersIdempotent(s[1..]);
      if s[0].Bytes? {
        assert ([s[0]] + BytesFields(s[1..]))[1..] == BytesFields(s[1..]);
      } else {
        assert ([s[0]] + FixedFields(s[1..]))[1..] == FixedFields(s[1..]);
      }
    }
  }

  lemma {:induction false} FiltersPermutation(s: seq<Field>)
    ensures multiset(FixedFields(s) + BytesFields(s)) == multiset(s)
  {
    if |s| > 0 {
      var t := s[1..];
      FiltersPermutation(t);
      assert multiset(s) == multiset([s[0]]) + multiset(t) by {
        assert s == [s[0]] + t;
      }
      if s[0].Bytes? {
        assert FixedFields(s) == FixedFields(t);
        assert BytesFields(s) == [s[0]] + BytesFields(t);
      } else {
        assert FixedFields(s) == [s[0]] + FixedFields(t);
        assert BytesFields(s) == BytesFields(t);
      }
      assert multiset(FixedFields(s) + BytesFields(s))
             == multiset(FixedFields(s)) + multiset(BytesFields(s));
    }
  }

  lemma {:induction false} FiltersWidth(s: seq<Field>)
    ensures TotalWidth(FixedFields(s)) + TotalWidth(BytesFields(s)) == TotalWidth(s)
  {
    if |s| > 0 {
      FiltersWidth(s[1..]);
      if s[0].Bytes? {
        assert ([s[0]] + BytesFields(s[1..]))[1..] == BytesFields(s[1..]);
      } else {
        assert ([s[0]] + FixedFields(s[1..]))[1..] == FixedFields(s[1..]);
      }
    }
  }

  /** Reorder is a stable sort of its input. */
  lemma ReorderIsStableSort(s: seq<Field>)
    ensures StableSortOf(Reorder(s), s)
  {
    FiltersAppend(FixedFields(s), BytesFields(s));
    FiltersIdempotent(s);
    FiltersPermutation(s);
    ReorderSorted(s);
  }

  lemma ReorderSorted(s: seq<Field>)
    ensures SortedByKind(Reorder(s))
  {
    var fixed, bytes := FixedFields(s), BytesFields(s);
    var r := fixed + bytes;
    forall i, j | 0 <= i < j < |r|
      ensures !Precedes(r[j], r[i])
    {
      if j < |fixed| {
        assert r[i] == fixed[i];
      } else {
        assert r[j] == bytes[j - |fixed|];
      }
    }
  }

  /** A sequence sorted by kind splits into its fixed-width part followed by
      its Bytes part. */
  lemma {:induction false} SortedSplits(r: seq<Field>)
    requires SortedByKind(r)
    ensures r == FixedFields(r) + BytesFields(r)
  {
    if |r| > 0 {
      assert SortedByKind(r[1..]) by {
        forall i, j | 0 <= i < j < |r[1..]|
          ensures !Precedes(r[1..][j], r[1..][i])
        {
          assert !Precedes(r[j + 1], r[i + 1]);
        }
      }
      SortedSplits(r[1..]);
      if r[0].Bytes? {
        AllBytes(r);
      }
    }
  }

  lemma AllBytes(r: seq<Field>)
    requires SortedByKind(r)
    requires |r| > 0 && r[0].Bytes?
    ensures FixedFields(r) == [] && BytesFields(r) == r
  {
    forall j | 0 <= j < |r|
      ensures r[j].Bytes?
    {
      if j > 0 {
        assert !Precedes(r[j], r[0]);
      }
    }
    AllBytesFilters(r);
  }

  lemma {:induction false} AllBytesFilters(r: seq<Field>)
    requires forall j :: 0 <= j < |r| ==> r[j].Bytes?
    ensures FixedFields(r) == [] && BytesFields(r) == r
  {
    if |r| > 0 {
      AllBytesFilters(r[1..]);
      assert r == [r[0]] + r[1..];
    }
  }

  /** Any stable sort of s by Precedes is Reorder(s): the order `construct`
      produces does not depend on which stable sorting algorithm runs. */
  lemma StableSortUnique(r: seq<Field>, s: seq<Field>)
    requires StableSortOf(r, s)
    ensures r == Reorder(s)
  {
    SortedSplits(r);
  }

  /** `Schema::construct` (lines 49-105). */
  function Construct(decls: seq<FieldDecl>): (schema: Schema)
    requires forall i :: 0 <= i < |decls| ==> ValidDecl(decls[i])
    ensures StableSortOf(schema.fields, ResolveAll(decls))
    ensures forall i :: 0 <= i < |schema.fields| ==> Resolved(schema.fields[i])
    ensures TotalWidth(schema.fields) == TotalWidth(ResolveAll(decls))
    ensures 8 * schema.maxByteLength <= TotalWidth(schema.fields) < 8 * schema.maxByteLength + 8
  {
    var resolved := ResolveAll(decls);
    ReorderIsStableSort(resolved);
    ReorderKeepsResolved(resolved);
    FiltersWidth(resolved);
    TotalWidthAppend(FixedFields(resolved), BytesFields(resolved));
    Schema(Reorder(resolved), TotalWidth(resolved) / 8)
  }

  lemma ReorderKeepsResolved(s: seq<Field>)
    requires forall i :: 0 <= i < |s| ==> Resolved(s[i])
    ensures forall i :: 0 <= i < |Reorder(s)| ==> Resolved(Reorder(s)[i])
  {
    FiltersPermutation(s);
    forall i | 0 <= i < |Reorder(s)|
      ensures Resolved(Reorder(s)[i])
    {
      var f := Reorder(s)[i];
      assert f in multiset(Reorder(s));
      assert f in s;
    }
  }

  /** The hint is a floor, not a ceiling: one Boolean needs a byte but the
      hint says zero (the integer division at line 97 precedes `ceil`). */
  lemma MaxByteLengthIsFloor()
    ensures Construct([BooleanDecl("flag")]).maxByteLength == 0
    ensures TotalWidth(Construct([BooleanDecl("flag")]).fields) == 1
  {
  }
}
